=== FILE: README.md ===
# modbus-client core, modelled in Dafny

A model of the core of `bthulu/modbus-client`, a Modbus TCP master built on Netty. It covers four parts:

- **`RegisterBuffer`** models `ModbusByteBuf`. This is a byte buffer of register data with a read cursor. It uses the client's word-swapped 32-bit layout and big-endian 16-bit registers, and it enforces the size limits: 62 ints, 125 shorts, 250 readable bytes and even-length byte arrays. Support modules:
  - `Binary` models `Integer.toBinaryString`, used by `readBitsReverse`.
  - `JavaInt` covers Java's `byte`/`short`/`int` arithmetic: wrap-around, the sign of `%`, and big-endian fields.
- **`Codec` and `Connection`** model `ModbusCodec`, the per-connection protocol handler.
  - `Codec` holds the pure parts:
    - the 5 ms pacing rule;
    - transaction-id allocation;
    - the request frames: the MBAP header of section 3.1.3 of the Modbus Messaging on TCP/IP Implementation Guide V1.0b, followed by the PDUs of function 0x03 (section 6.3) and function 0x10 (section 6.12) of the Modbus Application Protocol Specification V1.1b3.
  - `Connection` is the handler as a transition system. Its state is the id counter, the last write time, the pending map, the armed time-out actions and the completion state of each result slot. Its events are `Submit`, `Transmit`, `Receive` and `Fire`, one per thing the event loop runs. `Transmit` allocates ids as the source does, so an id can become negative once the counter overflows; `Codec.NextTid` is the corrected allocation (see Findings).
- **`Master`** models `ModbusMaster`'s argument and retry policy:
  - endpoint keys;
  - retry clamping and the defaults of the overloads;
  - the retry combinator, as a function over the sequence of attempt outcomes;
  - the order of `writeAsync0`'s checks, which every retry repeats;
  - the blocking `read` and `write` overloads;
  - the constructor's clamps.
- **`ExceptionCodes`** models `ModbusException.describeExceptionCode`, the table of section 7 of the Modbus Application Protocol Specification V1.1b3.

`Results` supplies the error, result and future types. A future is `Waiting` or `Done`, and the first completion wins, as with `CompletableFuture.complete`.

Clocks, schedulers and the network become parameters and events:
- `now` is an argument of `Submit`.
- A scheduled time-out is an element of `armed` until `Fire` runs it or `Receive` cancels it.
- How each attempt of a call ended is a sequence of outcomes given to `Master.Retry`.

## Model

All paths are under `src/main/java/bthulu/modbus/client/`.

| member | source | states |
|---|---|---|
| ExceptionCodes.Describe | src/main/java/bthulu/modbus/client/ModbusException.java:46-48 | total over `int`; the description is non-empty exactly for codes 1-8, 10 and 11, and is then the table's entry; every other code gives "" |
| ExceptionCodes.TableKeys | src/main/java/bthulu/modbus/client/ModbusException.java:22-43 | the table is keyed by exactly the codes 1-8, 10, 11 |
| ExceptionCodes.CodeListDistinct | src/main/java/bthulu/modbus/client/ModbusException.java:22-43 | exactly ten distinct codes have descriptions |
| ExceptionCodes.DescriptionsNonEmpty | src/main/java/bthulu/modbus/client/ModbusException.java:22-43 | every description in the table is non-empty |
| ExceptionCodes.BusyDescription | src/main/java/bthulu/modbus/client/ModbusException.java:22-48 | 6 is "Slave Device Busy", 1 is "Illegal Function", 11 is "Gateway Target Device Failed to Respond"; 0, 9, 12 and -1 are "" |
| Binary.ToBinaryString | src/main/java/bthulu/modbus/client/ModbusByteBuf.java:94 | the binary text of a non-negative number has at least one digit, starts with '1' unless the number is 0, and its length bounds the number |
| Binary.ToBinaryStringDigits | src/main/java/bthulu/modbus/client/ModbusByteBuf.java:94 | the i-th digit from the end of the text is bit i of the number |
| Binary.ToBinaryStringLength | src/main/java/bthulu/modbus/client/ModbusByteBuf.java:94-97 | a number below 2^k has at most k binary digits, so a register's text fits 16 characters |
| Binary.BitsReversed | src/main/java/bthulu/modbus/client/ModbusByteBuf.java:95-102 | the reversed text of a register, padded with '0', has exactly 16 characters |
| Binary.BitsReversedMeaning | src/main/java/bthulu/modbus/client/ModbusByteBuf.java:92-103 | character i is '1' if and only if bit i of the register is set |
| Binary.BitsReversedOfFive | src/main/java/bthulu/modbus/client/ModbusByteBuf.java:92-103 | 5 becomes "1010000000000000" |
| RegisterBuffer.EncodeInt | src/main/java/bthulu/modbus/client/ModbusByteBuf.java:118-121 | the first register written holds the low 16 bits of the 32-bit pattern and the second the high 16 bits, each high byte first |
| RegisterBuffer.DecodeInt | src/main/java/bthulu/modbus/client/ModbusByteBuf.java:44-50 | the value assembled from four bytes is the `int` whose encoding is exactly those bytes |
| RegisterBuffer.EncodeIntInjective | src/main/java/bthulu/modbus/client/ModbusByteBuf.java:118-121 | two `int`s with the same four bytes are equal |
| RegisterBuffer.DecodeEncodeInt | src/main/java/bthulu/modbus/client/ModbusByteBuf.java:44-50 | decoding the encoding of any `int`, negatives included, gives it back |
| RegisterBuffer.EncodeInts | src/main/java/bthulu/modbus/client/ModbusByteBuf.java:123-128 | the bytes of several values are 4 per value, and slice k is the encoding of value k |
| RegisterBuffer.EncodeIntsInjective | src/main/java/bthulu/modbus/client/ModbusByteBuf.java:123-128 | different sequences of values have different encodings |
| RegisterBuffer.WrapInts | src/main/java/bthulu/modbus/client/ModbusByteBuf.java:17-24 | fails with "exceed limited 125 registers" if and only if more than 62 values are given; otherwise a fresh buffer of exactly 4 bytes per value |
| RegisterBuffer.ReadInt | src/main/java/bthulu/modbus/client/ModbusByteBuf.java:44-50 | succeeds if and only if 4 bytes are readable; the value's encoding is the 4 bytes at the cursor, which advances by 4 |
| RegisterBuffer.ReadIntsN | src/main/java/bthulu/modbus/client/ModbusByteBuf.java:52-62 | n successive reads succeed if and only if 4n bytes are readable, return n values whose encodings are exactly the bytes read, and advance the cursor by 4n |
| RegisterBuffer.ReadInts | src/main/java/bthulu/modbus/client/ModbusByteBuf.java:52-62 | a negative count cannot allocate its array; otherwise the result is that of `count` successive single reads |
| RegisterBuffer.AddInt | src/main/java/bthulu/modbus/client/ModbusByteBuf.java:118-121 | the cursor and the unread bytes stay; 4 bytes follow them that decode back to the value (`DecodeInt`) |
| RegisterBuffer.AddInts | src/main/java/bthulu/modbus/client/ModbusByteBuf.java:123-128 | the cursor and the unread bytes stay; 4 bytes per value follow them, slot k decoding back to value k |
| RegisterBuffer.AddIntRoundTrip | src/main/java/bthulu/modbus/client/ModbusByteBuf.java:118-121 | `addInt(x)` then `readInt()` returns x for every `int` |
| RegisterBuffer.AddIntsRoundTrip | src/main/java/bthulu/modbus/client/ModbusByteBuf.java:123-128 | `addInt(xs...)` then `readInt(n)` for the n values returns xs |
| RegisterBuffer.WrapIntsRoundTrip | src/main/java/bthulu/modbus/client/ModbusByteBuf.java:17-24 | a wrapped sequence within the limit reads back unchanged and the buffer ends fully read |
| RegisterBuffer.AddShort | src/main/java/bthulu/modbus/client/ModbusByteBuf.java:130-133 | for a `short` or an `int` (lines 130-133 and 149-152): the cursor and the unread bytes stay; 2 bytes follow them that read back unsigned as the low 16 bits of the value |
| RegisterBuffer.AddShorts | src/main/java/bthulu/modbus/client/ModbusByteBuf.java:135-147 | for `short...` or `int...`: the cursor and the unread bytes stay; 2 bytes per element follow them, register k reading back unsigned as the low 16 bits of element k |
| RegisterBuffer.AddShortRoundTrip | src/main/java/bthulu/modbus/client/ModbusByteBuf.java:149-152 | `addShort(v)` then `readUnsignedShort()` returns the low 16 bits of v; `readShort()` returns a `short` v unchanged |
| RegisterBuffer.EncodeShorts | src/main/java/bthulu/modbus/client/ModbusByteBuf.java:135-140 | 2 bytes per register, slice k being register k high byte first |
| RegisterBuffer.EncodeShortsInjective | src/main/java/bthulu/modbus/client/ModbusByteBuf.java:135-140 | different `short` sequences have different encodings |
| RegisterBuffer.WrapShorts | src/main/java/bthulu/modbus/client/ModbusByteBuf.java:26-33 | fails with "exceed limited 125 registers" if and only if more than 125 shorts are given; otherwise exactly 2 bytes per short |
| RegisterBuffer.WrapShortsRoundTrip | src/main/java/bthulu/modbus/client/ModbusByteBuf.java:26-33 | wrapped shorts read back unchanged, in order |
| RegisterBuffer.ReadShort | src/main/java/bthulu/modbus/client/ModbusByteBuf.java:64-66 | succeeds if and only if 2 bytes are readable; the signed value's big-endian bytes are the 2 bytes at the cursor |
| RegisterBuffer.ReadUnsignedShort | src/main/java/bthulu/modbus/client/ModbusByteBuf.java:68-70 | as `ReadShort`, with the value in [0, 65535] |
| RegisterBuffer.ReadShortsN | src/main/java/bthulu/modbus/client/ModbusByteBuf.java:72-78 | n successive reads succeed if and only if 2n bytes are readable and return the registers the bytes encode |
| RegisterBuffer.ReadShorts | src/main/java/bthulu/modbus/client/ModbusByteBuf.java:72-78 | a negative count cannot allocate its array; otherwise `count` successive reads |
| RegisterBuffer.ReadByte | src/main/java/bthulu/modbus/client/ModbusByteBuf.java:80-82 | succeeds if and only if a byte is readable, returning it as a signed byte with the same bit pattern |
| RegisterBuffer.ReadBytes | src/main/java/bthulu/modbus/client/ModbusByteBuf.java:84-90 | succeeds if and only if 0 <= count <= readable bytes; a negative count cannot allocate; byte k read is the byte k after the cursor |
| RegisterBuffer.AddBytes | src/main/java/bthulu/modbus/client/ModbusByteBuf.java:154-160 | refuses an odd length with "bytes length is odd" and accepts every even length, appending the bytes verbatim without moving the cursor |
| RegisterBuffer.WrapBytes | src/main/java/bthulu/modbus/client/ModbusByteBuf.java:35-42 | refuses odd lengths and accepts every even length including 0; the new buffer's unread bytes are exactly the input |
| RegisterBuffer.Append | src/main/java/bthulu/modbus/client/ModbusByteBuf.java:162-165 | appends exactly the unread bytes of the source buffer |
| RegisterBuffer.ReadBitsReverse | src/main/java/bthulu/modbus/client/ModbusByteBuf.java:92-103 | consumes 2 bytes and returns 16 characters, character i being '1' if and only if bit i of the unsigned register is set |
| RegisterBuffer.ReadBitsReverseOfFive | src/main/java/bthulu/modbus/client/ModbusByteBuf.java:92-103 | the register 5 reads as "1010000000000000" |
| RegisterBuffer.SkipRegisters | src/main/java/bthulu/modbus/client/ModbusByteBuf.java:105-108 | skipping n registers moves the cursor by 2n and never changes the contents; a negative count or one beyond the readable bytes fails |
| RegisterBuffer.Validate | src/main/java/bthulu/modbus/client/ModbusByteBuf.java:167-171 | fails with "exceed limited 125 registers" if and only if more than 250 bytes are readable |
| RegisterBuffer.Rewind | src/main/java/bthulu/modbus/client/ModbusMaster.java:129 | after rewinding, every written byte is unread |
| Codec.Pace | src/main/java/bthulu/modbus/client/ModbusCodec.java:37-45 | immediate if and only if more than 5 ms have passed since the last write time; a delay is never negative; the new last write time is the send time, at least 5 ms after the old one and never before now |
| Codec.SendTimes | src/main/java/bthulu/modbus/client/ModbusCodec.java:37-45 | over a sequence of requests, each goes out no earlier than it was accepted, and consecutive send times are at least 5 ms apart |
| Codec.SendTimesSpaced | src/main/java/bthulu/modbus/client/ModbusCodec.java:43-45 | requests i < j go out at least 5·(j - i) ms apart |
| Codec.NextTidAsWritten | src/main/java/bthulu/modbus/client/ModbusCodec.java:49 | the counter advances by one with 32-bit wrap-around |
| Codec.TidAsWrittenInRange | src/main/java/bthulu/modbus/client/ModbusCodec.java:25-49 | from a counter of 0 the first id is 1; while the counter has not overflowed, every id lies in [0, 65534] |
| Codec.TidAsWrittenNegativeAfterOverflow | src/main/java/bthulu/modbus/client/ModbusCodec.java:49 | after 2^31 - 1 requests the counter wraps and the id is -32768 |
| Codec.NextTid | src/main/java/bthulu/modbus/client/ModbusCodec.java:49 | every id lies in [0, 65534] and agrees with the source's id until the counter overflows |
| Codec.ReadFrame | src/main/java/bthulu/modbus/client/ModbusCodec.java:82-90 | 12 bytes: tid, protocol 0, length = frame length - 6, unit 1, function 3, address, count, 16-bit fields high byte first |
| Codec.WriteFrame | src/main/java/bthulu/modbus/client/ModbusCodec.java:61-80 | 13 + N bytes: tid, 0, the 16-bit length field (frame length - 6), unit 1, function 0x10, address, N/2, N, then the N payload bytes verbatim |
| Codec.WriteFrameFieldsExact | src/main/java/bthulu/modbus/client/ModbusCodec.java:67-76 | for payloads of at most 250 bytes the length, register-count and byte-count fields hold their values exactly |
| Results.Complete | src/main/java/bthulu/modbus/client/ModbusCodec.java:53-56 | completing a future that is already done leaves it unchanged; a waiting one takes the given result |
| Connection.Transmit | src/main/java/bthulu/modbus/client/ModbusCodec.java:48-92 | registers the request under the source's next id (signed, negative after the counter overflows; the frame carries its low 16 bits and equals the corrected id until then), overwriting that entry only and arming its time-out; a read yields its read frame; a write yields no frame if and only if its payload exceeds 250 readable bytes, otherwise the write frame of the whole rewound payload |
| Connection.Submit | src/main/java/bthulu/modbus/client/ModbusCodec.java:34-46 | an immediate request is transmitted with the last write time set to now; a delayed one only advances the last write time by 5 ms |
| Connection.Receive | src/main/java/bthulu/modbus/client/ModbusCodec.java:105-133 | a frame whose id is not pending changes nothing; otherwise exactly that entry is removed; a matched frame cancels exactly its request's time-out and completes only its slot, never overwriting a completed one |
| Connection.ReceiveOutcome | src/main/java/bthulu/modbus/client/ModbusCodec.java:115-132 | function 3 completes with every byte after index 8 (the byte count is not checked); 16 completes with no value; any other code fails with the endpoint, ": device error, " and the description of byte 8 |
| Connection.BusyDeviceMessage | src/main/java/bthulu/modbus/client/ModbusCodec.java:129-132 | exception code 6 fails the request with "<endpoint>: device error, Slave Device Busy" |
| Connection.Fire | src/main/java/bthulu/modbus/client/ModbusCodec.java:51-57 | a cancelled or spent time-out does nothing; otherwise it removes its id from the pending map and fails the slot with "<endpoint> time out" only if not already done |
| Connection.ResponseCancelsTimeout | src/main/java/bthulu/modbus/client/ModbusCodec.java:115-132 | once a response is matched, its request's time-out can no longer change anything |
| Connection.LateResponseDropped | src/main/java/bthulu/modbus/client/ModbusCodec.java:109-114 | a response arriving after its time-out has fired is dropped and changes nothing |
| Connection.DuplicateResponseDropped | src/main/java/bthulu/modbus/client/ModbusCodec.java:109-114 | the same response delivered twice is consumed only once |
| Connection.NegativeIdNeverMatched | src/main/java/bthulu/modbus/client/ModbusCodec.java:105-114 | a request pending under a negative id stays pending, with the same request, whatever frame arrives, because a response id is read unsigned |
| Connection.OverflowedRequestUnmatched | src/main/java/bthulu/modbus/client/ModbusCodec.java:49-59 | when the counter is 2147483647 the next request is registered under -32768 while its frame carries 32768, and no response removes it |
| Connection.CorrectedIdEchoed | src/main/java/bthulu/modbus/client/ModbusCodec.java:49-70 | under the corrected allocation a response copying the request's id bytes carries exactly the registered id, which is the source's id until the counter overflows |
| Connection.InitialPendingArmed | src/main/java/bthulu/modbus/client/ModbusCodec.java:21-25 | a new handler has nothing pending without a time-out |
| Connection.TransitionsKeepPendingArmed | src/main/java/bthulu/modbus/client/ModbusCodec.java:51-59 | every event keeps each request still in the pending map covered by its armed time-out, so none of those can wait forever |
| Connection.CompletionIsFinal | src/main/java/bthulu/modbus/client/ModbusCodec.java:53-56 | a completed slot is never changed by any event |
| Master.EndpointKey | src/main/java/bthulu/modbus/client/ModbusMaster.java:100-104 | a missing or empty endpoint fails with "ipPort is empty"; any other key contains ':' and extends the endpoint, which is kept unchanged when it already names a port |
| Master.SplitKey | src/main/java/bthulu/modbus/client/ModbusMaster.java:106-107 | splits at the first ':': the host has no ':' and host + ":" + port is the key |
| Master.EndpointKeyIdempotent | src/main/java/bthulu/modbus/client/ModbusMaster.java:104 | normalising a key again changes nothing |
| Master.EndpointKeyDefaultPort | src/main/java/bthulu/modbus/client/ModbusMaster.java:104-107 | an endpoint without a port connects to the same host on port "502" |
| Master.EndpointKeySplitsGiven | src/main/java/bthulu/modbus/client/ModbusMaster.java:104-107 | an endpoint naming a port is kept and splits back into host and port |
| Master.Plan | src/main/java/bthulu/modbus/client/ModbusMaster.java:111-121 | a single plain attempt if and only if retries <= 0; otherwise a budget in [1, 5] equal to the request when that is at most 5 |
| Master.PlanMonotone | src/main/java/bthulu/modbus/client/ModbusMaster.java:115-117 | more requested retries never give a smaller budget, and anything from 5 up gives 5 |
| Master.Retry | src/main/java/bthulu/modbus/client/ModbusMaster.java:201-222 | a done result starts no attempt; at most retries + 1 attempts; a completed result is exactly the last attempt's outcome, which is a success, a connect time-out or the failure that spent the last retry; every earlier attempt failed with a cause other than a connect time-out; a result still waiting has used every outcome, and there were no more than retries of them |
| Master.RetryStopsAtFirstFinal | src/main/java/bthulu/modbus/client/ModbusMaster.java:201-222 | the run stops at the first success, connect time-out or budget-exhausting failure, completing with that outcome after that many attempts |
| Master.RetryStillWaiting | src/main/java/bthulu/modbus/client/ModbusMaster.java:201-222 | while no outcome has ended the run, the result is still waiting |
| Master.RetryBudgetExhausted | src/main/java/bthulu/modbus/client/ModbusMaster.java:216-220 | when every attempt fails retryably, exactly retries + 1 attempts are made and the last cause fails the result |
| Master.ConnectTimeoutStops | src/main/java/bthulu/modbus/client/ModbusMaster.java:211-215 | a connect time-out fails the result at once, whatever budget remains |
| Master.Run | src/main/java/bthulu/modbus/client/ModbusMaster.java:111-121 | a single attempt uses at most one outcome; a retried call at most budget + 1; a completed result is the first outcome that ends a run with the plan's budget, after only retryable failures; a waiting one has used every outcome, no more than the budget |
| Master.RetryRechecked | src/main/java/bthulu/modbus/client/ModbusMaster.java:201-222 | the combinator over `writeAsync0` (line 119), which repeats its check (line 128) on every retry: a retry whose repeated check passes runs as the plain combinator; one whose check fails makes only the first attempt, and after a retryable failure the caller's result is never completed; whenever it completes, it completes as the plain combinator would |
| Master.SingleAttemptIsRetryZero | src/main/java/bthulu/modbus/client/ModbusMaster.java:112-114 | a plain attempt has the same result as the combinator with no retries |
| Master.AttemptsBounded | src/main/java/bthulu/modbus/client/ModbusMaster.java:111-121 | whatever retry count is passed, a call makes at most 6 attempts |
| Master.ReadCall | src/main/java/bthulu/modbus/client/ModbusMaster.java:157-167 | fails synchronously if and only if the endpoint is refused; otherwise the call is keyed by the normalised endpoint, its requests carry the endpoint as given, and it runs under its plan |
| Master.WriteCallAsWritten | src/main/java/bthulu/modbus/client/ModbusMaster.java:111-139 | fails synchronously if and only if more than 250 bytes are readable before rewinding, or the endpoint is refused; the payload is the rewound buffer; a buffer within 250 bytes runs as the plain plan (retries after a framed attempt are covered under Left out); a larger one under retries hangs after a retryable first failure, because every retry repeats the check on the rewound buffer |
| Master.WriteCheckedBeforeRewind | src/main/java/bthulu/modbus/client/ModbusMaster.java:127-129 | a partly read buffer of 300 bytes passes the check, but the connection refuses to frame its rewound payload |
| Master.WriteCall | src/main/java/bthulu/modbus/client/ModbusMaster.java:127-139 | corrected order: fails synchronously if and only if the whole buffer exceeds 250 bytes or the endpoint is refused; otherwise the payload is the rewound buffer |
| Master.WriteCallAgrees | src/main/java/bthulu/modbus/client/ModbusMaster.java:127-129 | for a buffer unread from the start, the corrected call equals the source's |
| Master.AcceptedWriteIsFramed | src/main/java/bthulu/modbus/client/ModbusMaster.java:127-133 | every accepted write is framed by the connection with its whole buffer, with exact length and byte-count fields |
| Master.ReadAsync | src/main/java/bthulu/modbus/client/ModbusMaster.java:141-151 | at most min(retries, 5) + 1 attempts (one when retries <= 0); a completed result is the first outcome that ends a run with that budget, after only retryable failures; a waiting one has used no more outcomes than the budget |
| Master.ReadAsyncDefault | src/main/java/bthulu/modbus/client/ModbusMaster.java:153-155 | at most 2 attempts |
| Master.WriteAsync | src/main/java/bthulu/modbus/client/ModbusMaster.java:111-121 | built on the source's check order (`WriteCallAsWritten`): at most min(retries, 5) + 1 attempts (one when retries <= 0); a completed result is the first outcome that ends a run with that budget, after only retryable failures; for a buffer within 250 bytes a waiting one has used no more outcomes than the budget |
| Master.WriteAsyncDefault | src/main/java/bthulu/modbus/client/ModbusMaster.java:123-125 | built on the source's check order: at most 2 attempts |
| Master.Await | src/main/java/bthulu/modbus/client/ModbusMaster.java:169-175 | an exception from starting the call is rethrown as it is; a failed result is rethrown wrapped; a successful one returns its value; a waiting one blocks |
| Master.Rethrown | src/main/java/bthulu/modbus/client/ModbusMaster.java:172-173 | a success is returned as it is; a failed attempt reaches the caller as a `ModbusException` whose cause is the `ExecutionException` that carries the attempt's failure (`Wrapped` stands for both layers) |
| Master.Read | src/main/java/bthulu/modbus/client/ModbusMaster.java:169-175 | an empty endpoint throws the argument error unwrapped; otherwise the caller blocks until the one attempt ends and gets its value or its failure wrapped |
| Master.ReadWithRetries | src/main/java/bthulu/modbus/client/ModbusMaster.java:177-183 | an empty endpoint throws unwrapped; a first outcome that is a success or a connect time-out, or any first outcome when retries <= 0, is what the caller gets; any value returned is, rethrown, the first outcome that ends a run allowed min(retries, 5) retries; blocking means no more outcomes so far than that budget |
| Master.Write | src/main/java/bthulu/modbus/client/ModbusMaster.java:185-191 | more than 250 readable bytes throws the limit error and an empty endpoint the argument error, both unwrapped; a first success or connect time-out is what the caller gets; any value returned is, rethrown, the first outcome that ends a run allowed one retry; with a buffer within 250 bytes, blocking means at most one outcome so far |
| Master.WriteWithRetries | src/main/java/bthulu/modbus/client/ModbusMaster.java:193-199 | as `Write` with the caller's retry count: any value returned is the first outcome that ends a run allowed min(retries, 5) retries; with a buffer within 250 bytes, blocking means no more outcomes so far than that budget |
| Master.SettlesOnUnique | src/main/java/bthulu/modbus/client/ModbusMaster.java:201-222 | the outcomes and the retry budget determine what a blocking call returns: at most one outcome settles a run |
| Master.ReadStopsAtBudget | src/main/java/bthulu/modbus/client/ModbusMaster.java:177-183 | with one retry, two retryable failures and then a success, the caller gets the second failure, and the later success is not a value the run can settle on |
| Master.ReadOverloadIsSingleAttempt | src/main/java/bthulu/modbus/client/ModbusMaster.java:169-183 | the blocking `read` without a retry count equals the one with a count of 0 |
| Master.WriteOverloadIsOneRetry | src/main/java/bthulu/modbus/client/ModbusMaster.java:185-199 | the blocking `write` without a retry count equals the one with a count of 1 |
| Master.RetriedWriteHangs | src/main/java/bthulu/modbus/client/ModbusMaster.java:111-139 | a buffer whose readable bytes pass the check but whose whole contents exceed 250 bytes, after a retryable first failure, leaves the blocking `write` with retries (and the default `write`) waiting forever; the corrected order refuses it synchronously |
| Master.OverloadDefaults | src/main/java/bthulu/modbus/client/ModbusMaster.java:123-191 | after a retryable failure and then a success, the asynchronous read overload succeeds on the second attempt, and so do the asynchronous and blocking write overloads when the first attempt failed to connect; blocking `read` makes one attempt and rethrows the failure |
| Master.EmptyEndpointThrows | src/main/java/bthulu/modbus/client/ModbusMaster.java:100-103 | a blocking read on an empty or missing endpoint throws the argument error itself |
| Master.ConfigAsWritten | src/main/java/bthulu/modbus/client/ModbusMaster.java:38-40 | idle time at least 10 s; the time-outs are at least 1000 ms and 3000 ms while the seconds given do not overflow |
| Master.ConfigAsWrittenOverflow | src/main/java/bthulu/modbus/client/ModbusMaster.java:38-40 | 2147484 s becomes a negative number of milliseconds |
| Master.MakeConfig | src/main/java/bthulu/modbus/client/ModbusMaster.java:38-40 | request time-out at least 1000 ms, idle at least 10 s, connect time-out at least 3000 ms; each the given seconds times 1000 when that fits an `int` |
| Master.MakeConfigAgrees | src/main/java/bthulu/modbus/client/ModbusMaster.java:38-40 | where the source does not overflow, the corrected settings equal the source's |
| Master.DefaultConfig | src/main/java/bthulu/modbus/client/ModbusMaster.java:29-31 | the no-argument constructor gives 5000 ms, 60 s and 15000 ms |

## Left out

- The Netty plumbing is not modelled: the bootstrap and pipeline, the idle handler, connecting, DNS, and removing a channel from the pool on `channelUnregistered`/`exceptionCaught`. These are I/O and concurrency (`ModbusMaster.java:41-98`). The `computeIfAbsent` channel cache is reduced to the key it is looked up under.
- `Integer.parseInt` of the port text and the range check of `InetSocketAddress` are library behaviour. `SplitKey` stops at the port text.
- `LengthFieldBasedFrameDecoder(264, 4, 2)` is library behaviour. `Receive` takes one frame as the decoder delivers it.
- Clocks and schedulers become parameters and events: `System.currentTimeMillis`, `executor().schedule`, `ScheduledFuture.cancel` and `CompletableFuture`. The time-out's duration is not tracked, because `Fire` may run at any point. A delayed `Submit` is followed by a separate `Transmit` when its delay has passed.
- Exceptions thrown inside `channelRead` (a frame shorter than a field it reads) are reported as `Truncated`. The codec is the last handler of the pipeline and does not override `exceptionCaught`, so Netty passes the exception to the pipeline's tail, which only logs it. The handler that closes channels sits before the codec and never sees it (`ModbusMaster.java:69-79`). The channel stays open, and the request already removed from the pending map ends only by its time-out. `Receive` models this by keeping that request's timer armed. The logging is not modelled.
- A read that runs out of bytes part-way: Netty has already moved the cursor over the bytes read before it throws. The model reports the failure and does not give the partly advanced buffer.
- RegisterBuffer.ReadInts: the loop bound `count * 4` can overflow for counts above 2^29. Allocating such an array fails first in practice, so the model reads `count` values without the wrap.
- RegisterBuffer.SkipRegisters: the contract states the result only for counts whose doubling fits an `int`. The body models the 32-bit wrap of `length * 2` beyond that.
- Codec.NextTidAsWritten: the contract states only the counter's advance. What the id becomes is stated by `Codec.TidAsWrittenInRange` and `Codec.TidAsWrittenNegativeAfterOverflow`.
- RegisterBuffer.Append: `add(buf)` also consumes its argument: Netty's `writeBytes(src)` moves the argument's cursor to its end (`ModbusByteBuf.java:163`). The model returns only the destination, and the argument's new cursor is not modelled.
- Master.Await, Master.Read, Master.ReadWithRetries, Master.Write, Master.WriteWithRetries: an interrupted wait is not modelled. In the source `get()` can throw `InterruptedException`, which the blocking calls wrap in a `ModbusException` like a failed attempt (`ModbusMaster.java:172-173`). Interruption comes from another thread, so the model has no event for it. `Wrapped` also folds the two layers, the `ModbusException` and the `ExecutionException` inside it, into one.
- Reference counting and release are not modelled (`ReferenceCountUtil.release`, `ModbusByteBuf.release`). In the source the codec releases a write's payload once it has framed it (`ModbusCodec.java:77-79`).
- Master.WriteCallAsWritten, Master.OverloadDefaults: a retry after an attempt that was framed is modelled as sending the payload again. In the source the payload has been released by then, so the retry's `readerIndex(0)` (`ModbusMaster.java:129`) fails inside the completion callback and the caller's result is never completed. Had it passed, framing at `ModbusCodec.java:78` would fail after registration and the attempt could only time out. A retried write therefore succeeds in the source only when every earlier attempt failed before framing, for example because the connection failed (`ModbusMaster.java:136`). The model's retried writes are faithful only for that case, and `OverloadDefaults` states its write clauses only for it.
- Master.RetriedWriteHangs: the first attempt's outcome is an argument, not derived from the refused frame. In the source that attempt can end only by its time-out or by a failed connection, both retryable unless the connection timed out.
- Logging, `ModbusUtil`'s static facade with its shutdown hook, and the capacity hint of `capacity(n)` are not modelled.
- A caller's result is completed only by the combinator here. Completion from outside between two attempts (for example a caller's `cancel`) is modelled only as a result that is already done when the combinator is entered.
- The request holders `ModbusRequest`, `ReadRequest` and `WriteRequest` are the datatype `Connection.Request`.

## Findings

| source | as written | input that shows it | evidently intended | confidence | as-written member | corrected member |
|---|---|---|---|---|---|---|
| src/main/java/bthulu/modbus/client/ModbusCodec.java:49 | `tidAi.incrementAndGet() % 65535` on a 32-bit counter with Java's sign-keeping `%` | counter 2147483647 wraps to -2147483648 and the id is -32768 (`Codec.TidAsWrittenNegativeAfterOverflow`), which no response can carry because a response id is read unsigned | ids always in [0, 65534] | medium, not executed | Codec.NextTidAsWritten | Codec.NextTid |
| src/main/java/bthulu/modbus/client/ModbusMaster.java:38 | `Math.max(requestTimeoutSec, 1) * 1000` in 32-bit arithmetic | requestTimeoutSec = 2147484 gives a negative time-out (`Master.ConfigAsWrittenOverflow`), so every request would time out at once | a request time-out of at least 1000 ms | low, not executed | Master.ConfigAsWritten | Master.MakeConfig |
| src/main/java/bthulu/modbus/client/ModbusMaster.java:128-129 | `validate()` checks the readable bytes, then the cursor is rewound | a 300-byte buffer with 100 bytes already read passes, then the codec refuses its 300-byte payload and the request can only time out (`Master.WriteCheckedBeforeRewind`); the retry then repeats the check on the rewound buffer, throws inside the completion callback where nothing catches it, and the caller's result is never completed, so the default blocking `write` waits forever (`Master.RetriedWriteHangs`) | an oversized payload refused before a connection is requested | medium, not executed | Master.WriteCallAsWritten | Master.WriteCall |

=== FILE: binary.dfy ===
/**
 * The binary rendering behind `readBitsReverse`: Java's `Integer.toBinaryString` of an
 * unsigned register, reversed so that bit 0 comes first, padded with '0' to 16 characters.
 */
module Binary {
  import opened JavaInt

  function Pow2(i: nat): (r: nat)
    ensures r >= 1
  {
    if i == 0 then 1 else 2 * Pow2(i - 1)
  }

  /** `n >> i` for a non-negative `n`: `i` successive halvings. */
  function ShiftRight(n: nat, i: nat): nat
  {
    if i == 0 then n else ShiftRight(n / 2, i - 1)
  }

  /** Bit `i` of `n` is set. */
  predicate BitSet(n: nat, i: nat)
  {
    ShiftRight(n, i) % 2 == 1
  }

  function Digit(d: nat): char
    requires d < 2
  {
    if d == 0 then '0' else '1'
  }

  /** `Integer.toBinaryString` of a non-negative value: most significant bit first, no leading zeros. */
  function ToBinaryString(n: nat): (s: seq<char>)
    ensures 1 <= |s|
    ensures n < Pow2(|s|)
    ensures n >= 1 ==> s[0] == '1'
    decreases n
  {
    if n < 2 then [Digit(n)] else ToBinaryString(n / 2) + [Digit(n % 2)]
  }

  /** Shifting a value below 2^i right by i bits leaves nothing. */
  lemma {:induction false} ShiftRightBelow(n: nat, i: nat)
    requires n < Pow2(i)
    ensures ShiftRight(n, i) == 0
  {
    if i > 0 {
      ShiftRightBelow(n / 2, i - 1);
    }
  }

  lemma Pow2Sixteen()
    ensures Pow2(16) == TWO_16
  {
    assert Pow2(4) == 16;
    assert Pow2(8) == 256;
    assert Pow2(12) == 4096;
  }

  /** Reading the string from its end gives the bits of `n` from bit 0 upwards. */
  lemma {:induction false} ToBinaryStringDigits(n: nat, i: nat)
    requires i < |ToBinaryString(n)|
    ensures ToBinaryString(n)[|ToBinaryString(n)| - 1 - i] == Digit(ShiftRight(n, i) % 2)
    decreases n
  {
    if n >= 2 && i > 0 {
      ToBinaryStringDigits(n / 2, i - 1);
    }
  }

  /** Once a value is shifted down to 0, further shifts keep it 0. */
  lemma {:induction false} ShiftRightZero(i: nat, j: nat)
    requires i <= j
    ensures forall n: nat :: ShiftRight(n, i) == 0 ==> ShiftRight(n, j) == 0
  {
    forall n: nat | ShiftRight(n, i) == 0
      ensures ShiftRight(n, j) == 0
    {
      ShiftRightAdd(n, i, j - i);
      ShiftRightOfZero(j - i);
    }
  }

  lemma {:induction false} ShiftRightAdd(n: nat, i: nat, k: nat)
    ensures ShiftRight(n, i + k) == ShiftRight(ShiftRight(n, i), k)
    decreases i
  {
    if i > 0 {
      ShiftRightAdd(n / 2, i - 1, k);
    }
  }

  lemma {:induction false} ShiftRightOfZero(k: nat)
    ensures ShiftRight(0, k) == 0
  {
    if k > 0 {
      ShiftRightOfZero(k - 1);
    }
  }

  /** A value below 2^k has at most k binary digits. */
  lemma {:induction false} ToBinaryStringLength(n: nat, k: nat)
    requires 1 <= k && n < Pow2(k)
    ensures |ToBinaryString(n)| <= k
    decreases n
  {
    if n >= 2 {
      ToBinaryStringLength(n / 2, k - 1);
    }
  }

  /** The characters `readBitsReverse` returns for the unsigned register value `us`. */
  function BitsReversed(us: nat): (cs: seq<char>)
    requires us < TWO_16
    ensures |cs| == 16
  {
    var bin := ToBinaryString(us);
    Pow2Sixteen();
    ToBinaryStringLength(us, 16);
    seq(16, i requires 0 <= i < 16 => if i < |bin| then bin[|bin| - 1 - i] else '0')
  }

  /** Character `i` of the result is '1' exactly when bit `i` of the register is set. */
  lemma BitsReversedMeaning(us: nat, i: nat)
    requires us < TWO_16 && i < 16
    ensures BitsReversed(us)[i] == '1' <==> BitSet(us, i)
  {
    var bin := ToBinaryString(us);
    if i < |bin| {
      ToBinaryStringDigits(us, i);
    } else {
      ShiftRightBelow(us, |bin|);
      ShiftRightZero(|bin|, i);
    }
  }

  /** The register value 5 reads as "1010000000000000". */
  lemma BitsReversedOfFive()
    ensures BitsReversed(5) == "1010000000000000"
  {
    assert ToBinaryString(1) == "1";
    assert ToBinaryString(2) == "10";
    assert ToBinaryString(5) == "101";
  }
}

=== FILE: codec.dfy ===
/**
 * The pure parts of `ModbusCodec`, the per-connection protocol handler: the 5 ms pacing of
 * outbound requests, transaction-id allocation, and the request frames it writes. A frame
 * is the MBAP header of section 3.1.3 of the Modbus Messaging on TCP/IP Implementation
 * Guide V1.0b followed by the PDU of function 0x03 (Read Holding Registers, section 6.3)
 * or function 0x10 (Write Multiple Registers, section 6.12) of the Modbus Application
 * Protocol Specification V1.1b3.
 */
module Codec {
  import opened JavaInt

  /** The minimum spacing of two transmissions on one connection, in milliseconds. */
  const PACING_MS: int := 5
  /** Transaction ids are the request counter modulo this value. */
  const TID_MODULUS: int := 65535
  const PROTOCOL_ID: int := 0
  const UNIT_ID: byte := 0x01
  const READ_HOLDING_REGISTERS: byte := 0x03
  const WRITE_MULTIPLE_REGISTERS: byte := 0x10
  /** The header fields before the length field and the length field itself: 6 bytes. */
  const LENGTH_PREFIX: nat := 6

  // ---------------------------------------------------------------------------------------
  // Pacing

  /** Send now, or after `delay` milliseconds. */
  datatype Dispatch = Immediate | Delayed(delay: int)

  /** When a request accepted at time `now` goes out, and the last-write time it leaves behind. */
  datatype Paced = Paced(dispatch: Dispatch, lastWriteTime: int)

  /** The time the paced request is transmitted. */
  function SendTime(p: Paced, now: int): int
  {
    match p.dispatch
    case Immediate => now
    case Delayed(d) => now + d
  }

  /**
   * `write(ctx, msg, promise)`: if more than 5 ms have passed since the last recorded write the
   * request goes out now; otherwise it is scheduled 5 ms after the last recorded write, which
   * becomes the new last-write time so that a burst is spaced 5 ms apart.
   */
  function Pace(lastWriteTime: int, now: int): (p: Paced)
    ensures p.dispatch.Immediate? <==> lastWriteTime + PACING_MS < now
    ensures p.dispatch.Delayed? ==> p.dispatch.delay >= 0
    ensures p.lastWriteTime == SendTime(p, now)
    ensures SendTime(p, now) >= now
    ensures SendTime(p, now) >= lastWriteTime + PACING_MS
    ensures p.dispatch.Delayed? ==> SendTime(p, now) == lastWriteTime + PACING_MS
  {
    if lastWriteTime + PACING_MS < now then Paced(Immediate, now)
    else
      var executeTime := lastWriteTime + PACING_MS;
      Paced(Delayed(executeTime - now), executeTime)
  }

  /** The transmit times of requests accepted at the times `nows`, starting from `lastWriteTime`. */
  function SendTimes(lastWriteTime: int, nows: seq<int>): (times: seq<int>)
    ensures |times| == |nows|
    ensures forall i :: 0 <= i < |nows| ==> times[i] >= nows[i]
    ensures |nows| > 0 ==> times[0] >= lastWriteTime + PACING_MS
    ensures forall i :: 0 < i < |nows| ==> times[i] >= times[i - 1] + PACING_MS
    decreases |nows|
  {
    if nows == [] then []
    else
      var p := Pace(lastWriteTime, nows[0]);
      [SendTime(p, nows[0])] + SendTimes(p.lastWriteTime, nows[1..])
  }

  /** Any two requests on one connection go out at least 5 ms per request apart, in order. */
  lemma {:induction false} SendTimesSpaced(lastWriteTime: int, nows: seq<int>, i: nat, j: nat)
    requires i <= j < |nows|
    ensures SendTimes(lastWriteTime, nows)[j] - SendTimes(lastWriteTime, nows)[i] >= PACING_MS * (j - i)
    decreases j - i
  {
    if i < j {
      SendTimesSpaced(lastWriteTime, nows, i, j - 1);
    }
  }

  // ---------------------------------------------------------------------------------------
  // Transaction ids

  /**
   * The source's `tidAi.incrementAndGet() % 65535`: the `int` counter wraps at 2^31 and
   * Java's `%` keeps the dividend's sign.
   */
  function NextTidAsWritten(counter: int32): (r: (int32, int))
    ensures r.0 == Wrap32(counter + 1)
  {
    var next := Wrap32(counter + 1);
    (next, Rem(next, TID_MODULUS))
  }

  /** Until the counter overflows, the ids of the source lie in [0, 65534] and start at 1. */
  lemma TidAsWrittenInRange(counter: int32)
    requires 0 <= counter < 0x7FFF_FFFF
    ensures 0 <= NextTidAsWritten(counter).1 < TID_MODULUS
    ensures counter == 0 ==> NextTidAsWritten(counter).1 == 1
  {
  }

  /**
   * After 2^31 - 1 requests on one connection the counter wraps to -2^31 and the source's id
   * becomes negative, which no response can carry (a response's id is read unsigned).
   */
  lemma TidAsWrittenNegativeAfterOverflow()
    ensures NextTidAsWritten(0x7FFF_FFFF) == (-0x8000_0000, -32768)
  {
  }

  /**
   * The id allocation the source evidently intends: the wrapped counter taken modulo 65535
   * with a non-negative remainder (Java's `Math.floorMod`), so every id fits the 16-bit field.
   */
  function NextTid(counter: int32): (r: (int32, int))
    ensures r.0 == Wrap32(counter + 1)
    ensures 0 <= r.1 < TID_MODULUS
    ensures 0 <= counter < 0x7FFF_FFFF ==> r == NextTidAsWritten(counter)
  {
    var next := Wrap32(counter + 1);
    (next, next % TID_MODULUS)
  }

  // ---------------------------------------------------------------------------------------
  // Request frames

  /** The 12-byte request for function 0x03: read `count` registers from `address`. */
  function ReadFrame(tid: int, address: int32, count: int32): (f: seq<byte>)
    ensures |f| == 12
    ensures U16(f[0], f[1]) == Low16(tid)
    ensures U16(f[2], f[3]) == PROTOCOL_ID
    ensures U16(f[4], f[5]) == |f| - LENGTH_PREFIX
    ensures f[6] == UNIT_ID && f[7] == READ_HOLDING_REGISTERS
    ensures U16(f[8], f[9]) == Low16(address)
    ensures U16(f[10], f[11]) == Low16(count)
  {
    BigEndian16(tid) + BigEndian16(PROTOCOL_ID) + BigEndian16(6)
    + [UNIT_ID, READ_HOLDING_REGISTERS]
    + BigEndian16(address) + BigEndian16(count)
  }

  /**
   * The request for function 0x10: write the registers in `data` starting at `address`.
   * The header counts 7 + N bytes after the length field, the PDU carries N / 2 registers
   * and the byte count N, then the N bytes themselves.
   */
  function WriteFrame(tid: int, address: int32, data: seq<byte>): (f: seq<byte>)
    ensures |f| == 13 + |data|
    ensures U16(f[0], f[1]) == Low16(tid)
    ensures U16(f[2], f[3]) == PROTOCOL_ID
    ensures U16(f[4], f[5]) == Low16(|f| - LENGTH_PREFIX)
    ensures f[6] == UNIT_ID && f[7] == WRITE_MULTIPLE_REGISTERS
    ensures U16(f[8], f[9]) == Low16(address)
    ensures U16(f[10], f[11]) == Low16(|data| / 2)
    ensures f[12] == Low8(|data|)
    ensures f[13..] == data
  {
    BigEndian16(tid) + BigEndian16(PROTOCOL_ID) + BigEndian16(7 + |data|)
    + [UNIT_ID, WRITE_MULTIPLE_REGISTERS]
    + BigEndian16(address) + BigEndian16(|data| / 2) + [Low8(|data|)]
    + data
  }

  /** For a payload within the 250-byte limit the length and byte-count fields are exact. */
  lemma WriteFrameFieldsExact(tid: int, address: int32, data: seq<byte>)
    requires |data| <= 250
    ensures var f := WriteFrame(tid, address, data);
            U16(f[4], f[5]) == |f| - LENGTH_PREFIX && f[12] == |data| && U16(f[10], f[11]) == |data| / 2
  {
  }
}

=== FILE: connection.dfy ===
/**
 * The state of one connection's `ModbusCodec` as a transition system. Each event the
 * connection's event loop runs is one function from the state before to the state after:
 *
 *   Submit   `write(ctx, msg, promise)`: pacing, and the transmission itself when it is not delayed
 *   Transmit `write(ctx, request)`: id allocation, timeout registration and the request frame
 *   Receive  `channelRead`: one length-delimited response frame
 *   Fire     the timeout action scheduled by Transmit
 *
 * A request's result slot (its CompletableFuture) is named by `Request.future`; `futures`
 * records which slots the engine has completed.
 */
module Connection {
  import opened JavaInt
  import opened Results
  import opened RegisterBuffer
  import opened Codec
  import ExceptionCodes

  /** The two operations a request can carry (`ReadRequest` and `WriteRequest`). */
  datatype Op = ReadOp(count: int32) | WriteOp(payload: Buffer)

  /** `ModbusRequest`: the endpoint, the first register, the operation and the caller's result slot. */
  datatype Request = Request(ipPort: string, address: int32, op: Op, future: nat)

  /** What a successful request completes its slot with: the registers read, or nothing. */
  datatype Reply = Registers(data: Buffer) | Written

  /** The timeout action scheduled for a request under a transaction id. */
  datatype Timer = Timer(tid: int, request: Request)

  datatype Engine = Engine(
    counter: int32,                  // tidAi
    lastWriteTime: int,              // in milliseconds
    pending: map<int, Request>,      // requestMap, keyed by transaction id
    armed: set<Timer>,               // timeout actions scheduled and not yet cancelled or run
    futures: map<nat, Future<Reply>> // result slots, by name; a missing slot is still waiting
  )

  /** A new handler: counter 0, no write yet, nothing pending. */
  const Initial: Engine := Engine(0, 0, map[], {}, map[])

  function FutureOf(e: Engine, id: nat): Future<Reply>
  {
    if id in e.futures then e.futures[id] else Waiting
  }

  /** Completes slot `id` unless it is already completed. */
  function Settle(e: Engine, id: nat, r: Result<Reply>): (e': Engine)
    ensures FutureOf(e', id) == Complete(FutureOf(e, id), r)
    ensures forall k :: k != id ==> FutureOf(e', k) == FutureOf(e, k)
    ensures e'.counter == e.counter && e'.lastWriteTime == e.lastWriteTime
    ensures e'.pending == e.pending && e'.armed == e.armed
  {
    e.(futures := e.futures[id := Complete(FutureOf(e, id), r)])
  }

  function TimeoutMessage(ipPort: string): string
  {
    ipPort + " time out"
  }

  function DeviceErrorMessage(ipPort: string, code: int): string
  {
    ipPort + ": device error, " + ExceptionCodes.Describe(code)
  }

  // ---------------------------------------------------------------------------------------
  // Outbound

  /**
   * `write(ctx, request)`: takes the next transaction id, schedules the request's timeout,
   * registers the request under the id (replacing any request already there) and builds the
   * frame. A write payload over the size limit is refused after registration, so no frame
   * goes out and the request is left to time out. The id is the source's: the counter wraps
   * at 2^31 and the remainder keeps its sign, so the id can be negative (see `Codec`); the
   * frame carries its low 16 bits.
   */
  function Transmit(e: Engine, req: Request): (r: (Engine, Option<seq<byte>>))
    ensures var tid := NextTidAsWritten(e.counter).1;
            && r.0.counter == Wrap32(e.counter + 1)
            && r.0.pending == e.pending[tid := req]
            && r.0.armed == e.armed + {Timer(tid, req)}
            && r.0.futures == e.futures && r.0.lastWriteTime == e.lastWriteTime
    ensures 0 <= e.counter < 0x7FFF_FFFF ==>
      var tid := NextTidAsWritten(e.counter).1;
      0 <= tid < TID_MODULUS && tid == NextTid(e.counter).1
    ensures req.op.ReadOp? ==> r.1 == Some(ReadFrame(NextTidAsWritten(e.counter).1, req.address, req.op.count))
    ensures req.op.WriteOp? ==>
      (r.1.None? <==> Readable(req.op.payload) > MAX_READABLE)
    ensures req.op.WriteOp? && r.1.Some? ==>
      r.1.value == WriteFrame(NextTidAsWritten(e.counter).1, req.address, req.op.payload.bytes)
  {
    var (counter', tid) := NextTidAsWritten(e.counter);
    var e' := e.(counter := counter', pending := e.pending[tid := req], armed := e.armed + {Timer(tid, req)});
    match req.op
    case ReadOp(count) => (e', Some(ReadFrame(tid, req.address, count)))
    case WriteOp(payload) =>
      if Validate(payload).Fail? then (e', None)
      else (e', Some(WriteFrame(tid, req.address, Unread(Rewind(payload)))))
  }

  /** What `write(ctx, msg, promise)` did with an accepted request. */
  datatype Submitted = Submitted(engine: Engine, dispatch: Dispatch, frame: Option<seq<byte>>)

  /**
   * `write(ctx, msg, promise)` at time `now`: a request that may go out now is transmitted at
   * once; a delayed one is transmitted by a later `Transmit` when its delay has passed.
   */
  function Submit(e: Engine, req: Request, now: int): (s: Submitted)
    ensures s.dispatch == Pace(e.lastWriteTime, now).dispatch
    ensures s.engine.lastWriteTime == Pace(e.lastWriteTime, now).lastWriteTime
    ensures s.dispatch.Immediate? ==>
      (s.engine, s.frame) == Transmit(e.(lastWriteTime := now), req)
    ensures s.dispatch.Delayed? ==>
      s.engine == e.(lastWriteTime := e.lastWriteTime + PACING_MS) && s.frame.None?
  {
    var p := Pace(e.lastWriteTime, now);
    var e1 := e.(lastWriteTime := p.lastWriteTime);
    if p.dispatch.Immediate? then
      var (e2, frame) := Transmit(e1, req);
      Submitted(e2, p.dispatch, frame)
    else Submitted(e1, p.dispatch, None)
  }

  // ---------------------------------------------------------------------------------------
  // Inbound

  /** How `channelRead` disposed of a frame. */
  datatype Delivery =
    | Matched      // the frame answered a pending request
    | Unmatched    // no request is pending under its id: dropped
    | Truncated    // the frame ended before a field the handler reads (Netty throws)

  /** The unsigned transaction id in the first two bytes of a frame. */
  function FrameTid(frame: seq<byte>): nat
    requires |frame| >= 2
  {
    U16(frame[0], frame[1])
  }

  /**
   * `channelRead(in)`: reads the id, skips protocol id, length and unit id, reads the
   * function code, then removes the pending request under the id. Function 3 completes the
   * request with every byte after the byte-count field; function 16 completes it with no
   * value; any other code fails it with the described exception code of the next byte. The
   * request's timeout is cancelled once the frame has been read through.
   */
  function Receive(e: Engine, frame: seq<byte>): (r: (Engine, Delivery))
    ensures r.0.counter == e.counter && r.0.lastWriteTime == e.lastWriteTime
    ensures |frame| < 8 ==> r == (e, Truncated)
    ensures |frame| >= 8 && FrameTid(frame) !in e.pending ==> r == (e, Unmatched)
    ensures |frame| >= 8 && FrameTid(frame) in e.pending ==>
      && r.0.pending == e.pending - {FrameTid(frame)}
      && (r.1.Matched? <==> |frame| >= 9 || frame[7] == WRITE_MULTIPLE_REGISTERS)
    ensures r.1.Matched? ==>
      var req := e.pending[FrameTid(frame)];
      && r.0.armed == e.armed - {Timer(FrameTid(frame), req)}
      && FutureOf(r.0, req.future).Done?
      && (FutureOf(e, req.future).Done? ==> FutureOf(r.0, req.future) == FutureOf(e, req.future))
      && (forall k :: k != req.future ==> FutureOf(r.0, k) == FutureOf(e, k))
    ensures !r.1.Matched? ==> r.0.armed == e.armed && r.0.futures == e.futures
  {
    if |frame| < 8 then (e, Truncated)
    else
      var tid := FrameTid(frame);
      var code := SignedByte(frame[7]);
      if tid !in e.pending then (e, Unmatched)
      else
        var req := e.pending[tid];
        var e1 := e.(pending := e.pending - {tid});
        var e2 := e1.(armed := e1.armed - {Timer(tid, req)});
        if code == 3 then
          if |frame| < 9 then (e1, Truncated)
          else (Settle(e2, req.future, Success(Registers(Append(Empty, BufferState(frame, 9))))), Matched)
        else if code == 16 then
          (Settle(e2, req.future, Success(Written)), Matched)
        else if |frame| < 9 then (e1, Truncated)
        else
          var message := DeviceErrorMessage(req.ipPort, SignedByte(frame[8]));
          (Settle(e2, req.future, Failure(ModbusError(message))), Matched)
  }

  // ---------------------------------------------------------------------------------------
  // Timeout

  /**
   * The timeout action of `t`: removes whatever is pending under its id and fails its
   * request's slot with a time-out error unless the slot is already completed. A timer that
   * was cancelled, or has already run, does nothing.
   */
  function Fire(e: Engine, t: Timer): (e': Engine)
    ensures t !in e.armed ==> e' == e
    ensures t in e.armed ==>
      && e'.armed == e.armed - {t}
      && e'.pending == e.pending - {t.tid}
      && FutureOf(e', t.request.future) == Complete(FutureOf(e, t.request.future), Failure(ModbusError(TimeoutMessage(t.request.ipPort))))
      && (forall k :: k != t.request.future ==> FutureOf(e', k) == FutureOf(e, k))
  {
    if t !in e.armed then e
    else
      var e1 := e.(armed := e.armed - {t}, pending := e.pending - {t.tid});
      Settle(e1, t.request.future, Failure(ModbusError(TimeoutMessage(t.request.ipPort))))
  }

  // ---------------------------------------------------------------------------------------
  // Properties of the transitions

  /** What a matched response completes a still-waiting request with, by function code. */
  lemma ReceiveOutcome(e: Engine, frame: seq<byte>)
    requires |frame| >= 9 && FrameTid(frame) in e.pending
    requires FutureOf(e, e.pending[FrameTid(frame)].future).Waiting?
    ensures var req := e.pending[FrameTid(frame)];
            var f := FutureOf(Receive(e, frame).0, req.future);
            && (frame[7] == READ_HOLDING_REGISTERS ==>
                  f.Done? && f.result.Success? && f.result.value.Registers?
                  && f.result.value.data.reader == 0 && Unread(f.result.value.data) == frame[9..])
            && (frame[7] == WRITE_MULTIPLE_REGISTERS ==> f == Done(Success(Written)))
            && (frame[7] != READ_HOLDING_REGISTERS && frame[7] != WRITE_MULTIPLE_REGISTERS ==>
                  f == Done(Failure(ModbusError(req.ipPort + ": device error, " + ExceptionCodes.Describe(SignedByte(frame[8]))))))
  {
  }

  /** A busy device (exception code 6) fails the request with a message naming the condition. */
  lemma BusyDeviceMessage(e: Engine, frame: seq<byte>)
    requires |frame| >= 9 && FrameTid(frame) in e.pending
    requires FutureOf(e, e.pending[FrameTid(frame)].future).Waiting?
    requires frame[7] == 0x83 && frame[8] == 6
    ensures var req := e.pending[FrameTid(frame)];
            FutureOf(Receive(e, frame).0, req.future)
              == Done(Failure(ModbusError(req.ipPort + ": device error, Slave Device Busy")))
  {
    ReceiveOutcome(e, frame);
    assert SignedByte(frame[8]) == 6;
    ExceptionCodes.BusyDescription();
    var req := e.pending[FrameTid(frame)];
    assert req.ipPort + ": device error, " + "Slave Device Busy"
        == req.ipPort + ": device error, Slave Device Busy";
  }

  /** Once a request has been answered, its timeout can no longer fire. */
  lemma ResponseCancelsTimeout(e: Engine, frame: seq<byte>)
    requires |frame| >= 8 && FrameTid(frame) in e.pending
    requires Receive(e, frame).1.Matched?
    ensures var e' := Receive(e, frame).0;
            Fire(e', Timer(FrameTid(frame), e.pending[FrameTid(frame)])) == e'
  {
  }

  /** A response arriving after its request timed out is dropped and changes nothing. */
  lemma LateResponseDropped(e: Engine, t: Timer, frame: seq<byte>)
    requires t in e.armed && t.tid in e.pending && e.pending[t.tid] == t.request
    requires |frame| >= 8 && FrameTid(frame) == t.tid
    ensures Receive(Fire(e, t), frame) == (Fire(e, t), Unmatched)
  {
  }

  /** A response is consumed at most once: delivering the same frame again is dropped. */
  lemma DuplicateResponseDropped(e: Engine, frame: seq<byte>)
    requires |frame| >= 8
    ensures var e' := Receive(e, frame).0;
            Receive(e', frame) == (e', Unmatched)
  {
  }

  /** A request registered under a negative id outlives every response: only its time-out ends it. */
  lemma NegativeIdNeverMatched(e: Engine, tid: int, frame: seq<byte>)
    requires tid < 0 && tid in e.pending
    ensures var e' := Receive(e, frame).0;
            tid in e'.pending && e'.pending[tid] == e.pending[tid]
  {
  }

  /**
   * After 2^31 - 1 requests on a connection, the next one is registered under -32768 while
   * its frame carries the id 32768, and no response removes it.
   */
  lemma OverflowedRequestUnmatched(e: Engine, req: Request, response: seq<byte>)
    requires e.counter == 0x7FFF_FFFF && req.op.ReadOp?
    ensures var (e1, frame) := Transmit(e, req);
            && e1.pending == e.pending[-32768 := req]
            && frame.Some? && FrameTid(frame.value) == 32768
            && -32768 in Receive(e1, response).0.pending
            && Receive(e1, response).0.pending[-32768] == req
  {
    TidAsWrittenNegativeAfterOverflow();
    var e1 := Transmit(e, req).0;
    NegativeIdNeverMatched(e1, -32768, response);
  }

  /**
   * Under the corrected allocation every id survives the 16-bit field: a response that copies
   * the request's id bytes carries exactly the id the request was registered under.
   */
  lemma CorrectedIdEchoed(counter: int32, address: int32, count: int32, response: seq<byte>)
    requires |response| >= 2
    requires var f := ReadFrame(NextTid(counter).1, address, count);
             response[0] == f[0] && response[1] == f[1]
    ensures FrameTid(response) == NextTid(counter).1
    ensures 0 <= counter < 0x7FFF_FFFF ==> FrameTid(response) == NextTidAsWritten(counter).1
  {
  }

  // ---------------------------------------------------------------------------------------
  // Invariants

  /** Every request still in the pending map has its timeout scheduled, so none of them can wait forever. */
  ghost predicate PendingArmed(e: Engine)
  {
    forall tid :: tid in e.pending ==> Timer(tid, e.pending[tid]) in e.armed
  }

  lemma InitialPendingArmed()
    ensures PendingArmed(Initial)
  {
  }

  /** Each event keeps every pending request covered by its timeout. */
  lemma TransitionsKeepPendingArmed(e: Engine, req: Request, now: int, frame: seq<byte>, t: Timer)
    requires PendingArmed(e)
    ensures PendingArmed(Transmit(e, req).0)
    ensures PendingArmed(Submit(e, req, now).engine)
    ensures PendingArmed(Receive(e, frame).0)
    ensures PendingArmed(Fire(e, t))
  {
    var e1 := Fire(e, t);
    if t in e.armed {
      forall tid | tid in e1.pending
        ensures Timer(tid, e1.pending[tid]) in e1.armed
      {
        assert tid != t.tid;
      }
    }
  }

  /** A completed result slot is final: no event changes it again. */
  lemma CompletionIsFinal(e: Engine, id: nat, req: Request, now: int, frame: seq<byte>, t: Timer)
    requires FutureOf(e, id).Done?
    ensures FutureOf(Transmit(e, req).0, id) == FutureOf(e, id)
    ensures FutureOf(Submit(e, req, now).engine, id) == FutureOf(e, id)
    ensures FutureOf(Receive(e, frame).0, id) == FutureOf(e, id)
    ensures FutureOf(Fire(e, t), id) == FutureOf(e, id)
  {
  }
}

=== FILE: exception_codes.dfy ===
/**
 * The Modbus exception codes the client can describe (section 7 of the Modbus Application
 * Protocol Specification V1.1b3) and the lookup the connection engine uses to build a
 * device-error message.
 */
module ExceptionCodes {

  /** The codes that have a description: 1 to 8, 10 and 11 (9 is not assigned). */
  const DescribedCodes: set<int> := {1, 2, 3, 4, 5, 6, 7, 8, 10, 11}

  /** The table of `ModbusException`, keyed by exception code. */
  const Descriptions: map<int, string> := map[
    1 := "Illegal Function",
    2 := "Illegal Data Address",
    3 := "Illegal Data Value",
    4 := "Slave Device Failure",
    5 := "Acknowledge",
    6 := "Slave Device Busy",
    7 := "Negative Acknowledge",
    8 := "Memory Parity Error",
    10 := "Gateway Path Unavailable",
    11 := "Gateway Target Device Failed to Respond"
  ]

  /** `describeExceptionCode`: the description of `code`, or "" for a code the table lacks. */
  function Describe(code: int): (s: string)
    ensures s != "" <==> code in DescribedCodes
    ensures code in DescribedCodes ==> s == Descriptions[code]
  {
    if code in Descriptions then Descriptions[code] else ""
  }

  /** The described codes in increasing order: ten of them, all distinct. */
  const DescribedCodeList: seq<int> := [1, 2, 3, 4, 5, 6, 7, 8, 10, 11]

  /** The table is keyed by exactly the described codes, which are the ten listed ones. */
  lemma TableKeys()
    ensures Descriptions.Keys == DescribedCodes
    ensures forall c :: c in DescribedCodes <==> c in DescribedCodeList
  {
  }

  /** The list of described codes has ten entries, in strictly increasing (so distinct) order. */
  lemma CodeListDistinct()
    ensures |DescribedCodeList| == 10
    ensures forall i, j :: 0 <= i < j < |DescribedCodeList| ==> DescribedCodeList[i] < DescribedCodeList[j]
  {
  }

  /** Every description in the table is non-empty. */
  lemma DescriptionsNonEmpty()
    ensures forall c :: c in Descriptions ==> Descriptions[c] != ""
  {
  }

  /** The code a device returns when it is busy, which the engine turns into a retryable error. */
  lemma BusyDescription()
    ensures Describe(6) == "Slave Device Busy"
    ensures Describe(1) == "Illegal Function"
    ensures Describe(11) == "Gateway Target Device Failed to Respond"
    ensures Describe(0) == "" && Describe(9) == "" && Describe(12) == "" && Describe(-1) == ""
  {
  }
}

=== FILE: java_int.dfy ===
/**
 * Java's fixed-width integer types and the conversions the client performs between them.
 * Every value is an unbounded `int` restricted to the range of its Java type; the
 * narrowing casts of the source (`(byte)`, `writeShort`, `int` overflow) are written out.
 */
module JavaInt {

  const TWO_8: int := 0x100
  const TWO_16: int := 0x1_0000
  const TWO_32: int := 0x1_0000_0000

  type byte = b: int | 0 <= b < 0x100
  type int8 = x: int | -0x80 <= x < 0x80
  type int16 = x: int | -0x8000 <= x < 0x8000
  type int32 = x: int | -0x8000_0000 <= x < 0x8000_0000

  /** Two's-complement narrowing of an exact result to Java `int`, as `int` arithmetic does on overflow. */
  function Wrap32(x: int): (r: int32)
    ensures (r - x) % TWO_32 == 0
    ensures -0x8000_0000 <= x < 0x8000_0000 ==> r == x
  {
    var m := x % TWO_32;
    if m < 0x8000_0000 then m else m - TWO_32
  }

  /** Java's `%` with a positive divisor: division truncates, so the remainder has the dividend's sign. */
  function Rem(a: int, b: int): (r: int)
    requires b > 0
    ensures 0 <= a ==> 0 <= r < b
    ensures a < 0 ==> -b < r <= 0
  {
    if a >= 0 then a % b else -((-a) % b)
  }

  /** The low 8 bits of `x`: Java's `(byte)` cast and `writeByte`, read back as an unsigned pattern. */
  function Low8(x: int): byte
  {
    x % TWO_8
  }

  /** The low 16 bits of `x`, as an unsigned value: what `writeShort` puts on the wire. */
  function Low16(x: int): (r: nat)
    ensures r < TWO_16
  {
    x % TWO_16
  }

  /** The unsigned value of a big-endian pair of bytes (Netty's `readUnsignedShort`). */
  function U16(hi: byte, lo: byte): (r: nat)
    ensures r < TWO_16
  {
    hi * TWO_8 + lo
  }

  /** Netty's `writeShort(v)`: the low 16 bits of `v`, high byte first. */
  function BigEndian16(v: int): (w: seq<byte>)
    ensures |w| == 2
    ensures U16(w[0], w[1]) == Low16(v)
  {
    var u := Low16(v);
    [u / TWO_8, u % TWO_8]
  }

  /** The signed value of a byte pattern, i.e. Java's `byte`. */
  function SignedByte(b: byte): (r: int8)
    ensures Low8(r) == b
  {
    if b < 0x80 then b else b - TWO_8
  }

  /** The signed value of a 16-bit pattern, i.e. Java's `short`. */
  function Signed16(u: nat): (r: int16)
    requires u < TWO_16
    ensures Low16(r) == u
  {
    if u < 0x8000 then u else u - TWO_16
  }

  /** The signed value of a 32-bit pattern, i.e. Java's `int`. */
  function Signed32(u: nat): (r: int32)
    requires u < TWO_32
    ensures r % TWO_32 == u
  {
    if u < 0x8000_0000 then u else u - TWO_32
  }

  /** Two 16-bit patterns never collide once narrowed: `BigEndian16` is injective on the low 16 bits. */
  lemma BigEndian16Injective(a: int, b: int)
    requires BigEndian16(a) == BigEndian16(b)
    ensures Low16(a) == Low16(b)
  {
    assert U16(BigEndian16(a)[0], BigEndian16(a)[1]) == U16(BigEndian16(b)[0], BigEndian16(b)[1]);
  }

  // Identities between nested divisions by the byte and word sizes, used to relate the
  // source's shift-and-cast byte extraction to the 16-bit register halves.

  lemma SplitLow(x: int)
    ensures (x % TWO_16) / TWO_8 == (x / TWO_8) % TWO_8
    ensures (x % TWO_16) % TWO_8 == x % TWO_8
  {
    var q := x / TWO_16;
    var r := x % TWO_16;
    assert x == TWO_16 * q + r;
    var c := r / TWO_8;
    var d := r % TWO_8;
    assert r == TWO_8 * c + d;
    assert x == TWO_8 * (TWO_8 * q + c) + d;
  }

  lemma SplitWord(x: int)
    ensures (x % TWO_32) / TWO_16 == (x / TWO_16) % TWO_16
    ensures (x % TWO_32) % TWO_16 == x % TWO_16
  {
    var q := x / TWO_32;
    var r := x % TWO_32;
    assert x == TWO_32 * q + r;
    var c := r / TWO_16;
    var d := r % TWO_16;
    assert r == TWO_16 * c + d;
    assert x == TWO_16 * (TWO_16 * q + c) + d;
  }

  lemma SplitHigh(x: int)
    ensures (x / TWO_16) / TWO_8 == x / 0x100_0000
  {
    var q := x / 0x100_0000;
    var r := x % 0x100_0000;
    assert x == 0x100_0000 * q + r;
    assert x == TWO_16 * (TWO_8 * q + r / TWO_16) + r % TWO_16;
    assert x / TWO_16 == TWO_8 * q + r / TWO_16;
  }

  /** A big-endian byte pair is determined by its value. */
  lemma U16Injective(a: byte, b: byte, c: byte, d: byte)
    requires U16(a, b) == U16(c, d)
    ensures a == c && b == d
  {
  }

  /** Two Java `int`s with the same 32-bit pattern are the same value. */
  lemma SameWrap(x: int32, y: int32)
    requires x % TWO_32 == y % TWO_32
    ensures x == y
  {
    assert x == TWO_32 * (x / TWO_32) + x % TWO_32;
    assert y == TWO_32 * (y / TWO_32) + y % TWO_32;
    assert -1 <= x / TWO_32 <= 0;
    assert -1 <= y / TWO_32 <= 0;
  }
}

=== FILE: master.dfy ===
/**
 * The argument and retry policy of `ModbusMaster`: how an endpoint string names a
 * connection, how many attempts a call may make, how the retry combinator turns a sequence
 * of attempt outcomes into the caller's result, and the clamps the constructor applies.
 *
 * An attempt's outcome comes from the connection (see `Connection`); here it is a parameter:
 * `outcomes[i]` is how attempt i ended, and a sequence that runs out means the next attempt
 * has not completed yet.
 */
module Master {
  import opened JavaInt
  import opened Results
  import opened RegisterBuffer
  import Codec
  import Connection

  // ---------------------------------------------------------------------------------------
  // Endpoint keys

  const DEFAULT_PORT: string := "502"
  const EMPTY_ENDPOINT: string := "ipPort is empty"

  /**
   * The key `getChannel` caches a connection under. A missing (`null`) or empty endpoint is
   * refused; one without a port gets the Modbus TCP port 502.
   */
  function EndpointKey(ipPort: Option<string>): (r: Result<string>)
    ensures r.Failure? <==> ipPort.None? || ipPort.value == []
    ensures r.Failure? ==> r.error == IllegalArgument(EMPTY_ENDPOINT)
    ensures r.Success? ==> ':' in r.value && ipPort.value <= r.value
    ensures r.Success? && ':' in ipPort.value ==> r.value == ipPort.value
  {
    match ipPort
    case None => Failure(IllegalArgument(EMPTY_ENDPOINT))
    case Some(s) =>
      if s == [] then Failure(IllegalArgument(EMPTY_ENDPOINT))
      else if ':' in s then Success(s)
      else Success(s + ":" + DEFAULT_PORT)
  }

  /** The position of the first `c` in `s`. */
  function IndexOf(s: string, c: char): (i: nat)
    requires c in s
    ensures i < |s| && s[i] == c && c !in s[..i]
  {
    if s[0] == c then 0
    else
      assert c in s[1..] by { var k :| 0 <= k < |s| && s[k] == c; assert s[1..][k - 1] == c; }
      var j := IndexOf(s[1..], c);
      assert s[..j + 1] == [s[0]] + s[1..][..j];
      j + 1
  }

  /** `k.split(":", 2)`: the host before the first ':' and the port text after it. */
  function SplitKey(key: string): (parts: (string, string))
    requires ':' in key
    ensures ':' !in parts.0
    ensures parts.0 + ":" + parts.1 == key
  {
    var i := IndexOf(key, ':');
    assert key == key[..i] + ":" + key[i + 1..];
    (key[..i], key[i + 1..])
  }

  /** Normalising a key again changes nothing: every key already names its port. */
  lemma EndpointKeyIdempotent(ipPort: string)
    requires EndpointKey(Some(ipPort)).Success?
    ensures EndpointKey(Some(EndpointKey(Some(ipPort)).value)) == EndpointKey(Some(ipPort))
  {
  }

  /** An endpoint given without a port connects to the host as given, on port 502. */
  lemma EndpointKeyDefaultPort(host: string)
    requires host != [] && ':' !in host
    ensures EndpointKey(Some(host)).Success?
    ensures SplitKey(EndpointKey(Some(host)).value) == (host, DEFAULT_PORT)
  {
    var key := EndpointKey(Some(host)).value;
    var i := IndexOf(key, ':');
    assert key[|host|] == ':';
    assert key[..|host|] == host;
    assert key[i + 1..] == DEFAULT_PORT;
  }

  /** An endpoint that names a port is split at its first ':' back into host and port text. */
  lemma EndpointKeySplitsGiven(ipPort: string)
    requires ':' in ipPort
    ensures EndpointKey(Some(ipPort)) == Success(ipPort)
    ensures var (host, port) := SplitKey(ipPort);
            host + ":" + port == ipPort && ':' !in host
  {
  }

  // ---------------------------------------------------------------------------------------
  // Retry budget

  /** The most retries a call may ask for. */
  const MAX_RETRIES: nat := 5

  /** How a call runs: one attempt with no combinator, or the combinator with a budget. */
  datatype RetryPlan = SingleAttempt | WithRetries(budget: nat)

  /** The retries a call is allowed: none for a count of at most 0, otherwise at most five. */
  function RetryBudget(retries: int32): (b: nat)
    ensures b <= MAX_RETRIES
    ensures retries <= 0 ==> b == 0
    ensures 0 < retries <= MAX_RETRIES ==> b == retries
    ensures retries > MAX_RETRIES ==> b == MAX_RETRIES
  {
    if retries <= 0 then 0 else if retries > MAX_RETRIES as int then MAX_RETRIES else retries as nat
  }

  /** The retries a plan allows: none for a single attempt. */
  function Budget(plan: RetryPlan): nat
  {
    match plan
    case SingleAttempt => 0
    case WithRetries(budget) => budget
  }

  /** `readAsync`/`writeAsync` with a retry count: non-positive means one plain attempt. */
  function Plan(retries: int32): (p: RetryPlan)
    ensures p.SingleAttempt? <==> retries <= 0
    ensures p.WithRetries? ==> 1 <= p.budget <= MAX_RETRIES
    ensures p.WithRetries? && retries <= MAX_RETRIES ==> p.budget == retries
    ensures Budget(p) == RetryBudget(retries)
  {
    if retries <= 0 then SingleAttempt
    else if retries > MAX_RETRIES as int then WithRetries(MAX_RETRIES)
    else WithRetries(retries)
  }

  /** The clamp is monotone and saturating: more requested retries never buy fewer. */
  lemma PlanMonotone(a: int32, b: int32)
    requires 0 < a <= b
    ensures Plan(a).budget <= Plan(b).budget
    ensures b >= MAX_RETRIES ==> Plan(b) == WithRetries(MAX_RETRIES)
  {
  }

  // ---------------------------------------------------------------------------------------
  // The retry combinator

  /** How many attempt outcomes a run consumed, and the state of the caller's result. */
  datatype RetryRun<T> = RetryRun(attempts: nat, result: Future<T>)

  /** Whether an attempt's outcome ends the run with `retries` retries left. */
  predicate Final<T>(outcome: Result<T>, retries: nat)
  {
    outcome.Success? || outcome.error == ConnectTimeout || retries == 0
  }

  /**
   * `retry(supplier, future, retries)`: an already completed result starts no attempt; a
   * success completes the result with its value; a connect time-out fails it at once; any
   * other failure spends one retry, or fails the result with that cause when none is left.
   */
  function Retry<T>(f: Future<T>, outcomes: seq<Result<T>>, retries: nat): (run: RetryRun<T>)
    ensures run.attempts <= |outcomes| && run.attempts <= retries + 1
    ensures f.Done? ==> run == RetryRun(0, f)
    ensures f.Waiting? && run.result.Done? ==>
      run.attempts >= 1 && run.result.result == outcomes[run.attempts - 1]
      && Final(outcomes[run.attempts - 1], retries - (run.attempts - 1))
    ensures f.Waiting? && run.result.Waiting? ==> run.attempts == |outcomes| && |outcomes| <= retries
    ensures f.Waiting? ==> forall i :: 0 <= i < run.attempts - 1 ==>
      Retryable(outcomes[i])
    decreases |outcomes|
  {
    if f.Done? then RetryRun(0, f)
    else if outcomes == [] then RetryRun(0, Waiting)
    else if Final(outcomes[0], retries) then RetryRun(1, Done(outcomes[0]))
    else
      var rest := Retry(f, outcomes[1..], retries - 1);
      RetryRun(rest.attempts + 1, rest.result)
  }

  /** No outcome before index `k` ends a run that starts with `retries` retries. */
  ghost predicate NoneFinalBefore<T>(outcomes: seq<Result<T>>, retries: nat, k: nat)
    requires k <= |outcomes| && k <= retries + 1
  {
    forall i :: 0 <= i < k ==> !Final(outcomes[i], retries - i)
  }

  /**
   * The combinator's result, by position: the run stops at the first outcome that is a
   * success, a connect time-out, or the attempt that spends the last retry, and completes
   * the result with exactly that outcome.
   */
  lemma {:induction false} RetryStopsAtFirstFinal<T>(outcomes: seq<Result<T>>, retries: nat, k: nat)
    requires k < |outcomes| && k <= retries
    requires NoneFinalBefore(outcomes, retries, k) && Final(outcomes[k], retries - k)
    ensures Retry(Waiting, outcomes, retries) == RetryRun(k + 1, Done(outcomes[k]))
    decreases k
  {
    if k > 0 {
      assert !Final(outcomes[0], retries - 0);
      forall i | 0 <= i < k - 1
        ensures !Final(outcomes[1..][i], (retries - 1) - i)
      {
        assert outcomes[1..][i] == outcomes[i + 1];
        assert !Final(outcomes[i + 1], retries - (i + 1));
      }
      RetryStopsAtFirstFinal(outcomes[1..], retries - 1, k - 1);
    }
  }

  /** When no outcome so far ends the run, the result is still waiting for the next attempt. */
  lemma {:induction false} RetryStillWaiting<T>(outcomes: seq<Result<T>>, retries: nat)
    requires |outcomes| <= retries
    requires NoneFinalBefore(outcomes, retries, |outcomes|)
    ensures Retry(Waiting, outcomes, retries) == RetryRun(|outcomes|, Waiting)
    decreases |outcomes|
  {
    if outcomes != [] {
      assert !Final(outcomes[0], retries - 0);
      forall i | 0 <= i < |outcomes| - 1
        ensures !Final(outcomes[1..][i], (retries - 1) - i)
      {
        assert outcomes[1..][i] == outcomes[i + 1];
        assert !Final(outcomes[i + 1], retries - (i + 1));
      }
      RetryStillWaiting(outcomes[1..], retries - 1);
    }
  }

  /** A run whose attempts all fail with retryable causes makes exactly retries + 1 attempts. */
  lemma RetryBudgetExhausted<T>(outcomes: seq<Result<T>>, retries: nat)
    requires retries < |outcomes|
    requires forall i :: 0 <= i <= retries ==> Retryable(outcomes[i])
    ensures Retry(Waiting, outcomes, retries) == RetryRun(retries + 1, Done(outcomes[retries]))
  {
    RetryStopsAtFirstFinal(outcomes, retries, retries);
  }

  /** A connect time-out ends the run at once, whatever budget is left. */
  lemma ConnectTimeoutStops<T>(outcomes: seq<Result<T>>, retries: nat)
    requires outcomes != [] && outcomes[0] == Failure(ConnectTimeout)
    ensures Retry(Waiting, outcomes, retries) == RetryRun(1, Done(Failure(ConnectTimeout)))
  {
  }

  /** The outcome of running a call under a plan; a single attempt is the attempt itself. */
  function Run<T>(plan: RetryPlan, outcomes: seq<Result<T>>): (run: RetryRun<T>)
    ensures run.attempts <= |outcomes|
    ensures plan.SingleAttempt? ==> run.attempts <= 1
    ensures plan.WithRetries? ==> run.attempts <= plan.budget + 1
    ensures run.result.Done? ==> Settled(outcomes, run, Budget(plan))
    ensures run.result.Waiting? ==> run.attempts == |outcomes| && |outcomes| <= Budget(plan)
  {
    match plan
    case SingleAttempt =>
      if outcomes == [] then RetryRun(0, Waiting) else RetryRun(1, Done(outcomes[0]))
    case WithRetries(budget) => Retry(Waiting, outcomes, budget)
  }

  /** A single plain attempt behaves as the combinator with no retries. */
  lemma SingleAttemptIsRetryZero<T>(outcomes: seq<Result<T>>)
    ensures Run(SingleAttempt, outcomes) == Retry(Waiting, outcomes, 0)
  {
  }

  /** An attempt whose failure the combinator retries while budget is left. */
  predicate Retryable<T>(outcome: Result<T>)
  {
    outcome.Failure? && outcome.error != ConnectTimeout
  }

  /**
   * A completed run, allowed `budget` retries, ended on an outcome it consumed that ends a run
   * with the retries then left, and every attempt before that one failed with a retryable
   * cause.
   */
  ghost predicate Settled<T>(outcomes: seq<Result<T>>, run: RetryRun<T>, budget: nat)
  {
    && run.result.Done?
    && 1 <= run.attempts <= |outcomes| && run.attempts <= budget + 1
    && run.result.result == outcomes[run.attempts - 1]
    && Final(outcomes[run.attempts - 1], budget - (run.attempts - 1))
    && forall i :: 0 <= i < run.attempts - 1 ==> Retryable(outcomes[i])
  }

  /**
   * The combinator over a supplier that re-checks its argument on every retry and throws when
   * the check fails. The first attempt has already passed the check; a retry whose check
   * fails throws inside the previous attempt's completion callback, where the exception is
   * lost, so the caller's result is never completed and no further attempt starts.
   */
  function RetryRechecked<T>(outcomes: seq<Result<T>>, retries: nat, recheckPasses: bool): (run: RetryRun<T>)
    ensures run.attempts <= |outcomes| && run.attempts <= retries + 1
    ensures recheckPasses ==> run == Retry(Waiting, outcomes, retries)
    ensures !recheckPasses ==> run.attempts <= 1
    ensures run.result.Done? ==> run == Retry(Waiting, outcomes, retries) && Settled(outcomes, run, retries)
    ensures !recheckPasses && outcomes != [] && Retryable(outcomes[0]) && retries > 0 ==>
      run == RetryRun(1, Waiting)
  {
    if recheckPasses || outcomes == [] || Final(outcomes[0], retries) then Retry(Waiting, outcomes, retries)
    else RetryRun(1, Waiting)
  }

  /** Whatever retry count a caller passes, a call makes at most six attempts. */
  lemma AttemptsBounded<T>(retries: int32, outcomes: seq<Result<T>>)
    ensures Run(Plan(retries), outcomes).attempts <= MAX_RETRIES + 1
  {
  }

  // ---------------------------------------------------------------------------------------
  // Calls

  /**
   * A call that got as far as requesting a connection: the connection key, the endpoint its
   * requests carry (as the caller wrote it) and the run of its attempts.
   */
  datatype Call<T> = Call(key: string, ipPort: string, run: RetryRun<T>)

  /** `readAsync0`, run under `plan`: the endpoint is checked before anything is sent. */
  function ReadCall(ipPort: Option<string>, plan: RetryPlan, outcomes: seq<Result<Buffer>>): (r: Result<Call<Buffer>>)
    ensures r.Failure? <==> EndpointKey(ipPort).Failure?
    ensures r.Failure? ==> r.error == IllegalArgument(EMPTY_ENDPOINT)
    ensures r.Success? ==>
      r.value.key == EndpointKey(ipPort).value && r.value.ipPort == ipPort.value
      && r.value.run == Run(plan, outcomes)
  {
    var key :- EndpointKey(ipPort);
    Success(Call(key, ipPort.value, Run(plan, outcomes)))
  }

  /**
   * `writeAsync0` as written, run under `plan`: the readable bytes are checked against the
   * limit, then the buffer is rewound so that every attempt sends it from the start, then
   * the endpoint is checked. The rewound buffer is the payload the requests carry.
   *
   * Under the combinator every retry calls `writeAsync0` again and so repeats the check, on
   * the buffer as the previous attempt left it. A framed attempt has read the whole buffer
   * (nothing readable, so the check passes); an attempt the connection refused to frame left
   * it rewound, with all its bytes readable, so the check passes exactly when the rewound
   * payload is within the limit.
   */
  function WriteCallAsWritten(ipPort: Option<string>, buf: Buffer, plan: RetryPlan, outcomes: seq<Result<()>>): (r: Result<(Buffer, Call<()>)>)
    ensures r.Failure? <==> Readable(buf) > MAX_READABLE || EndpointKey(ipPort).Failure?
    ensures Readable(buf) > MAX_READABLE ==> r == Failure(ModbusError(TOO_MANY_REGISTERS))
    ensures Readable(buf) <= MAX_READABLE && r.Failure? ==> r.error == IllegalArgument(EMPTY_ENDPOINT)
    ensures r.Success? ==>
      var (payload, call) := r.value;
      && payload.reader == 0 && payload.bytes == buf.bytes
      && call.key == EndpointKey(ipPort).value && call.ipPort == ipPort.value
      && call.run.attempts <= |outcomes|
      && (plan.SingleAttempt? ==> call.run.attempts <= 1)
      && (plan.WithRetries? ==> call.run.attempts <= plan.budget + 1)
      && call.run.attempts <= Budget(plan) + 1
      && (call.run.result.Done? ==> Settled(outcomes, call.run, Budget(plan)))
    ensures r.Success? && |buf.bytes| <= MAX_READABLE ==> r.value.1.run == Run(plan, outcomes)
    ensures var stuck := |buf.bytes| > MAX_READABLE && plan.WithRetries? && plan.budget > 0;
      r.Success? && stuck && outcomes != [] && Retryable(outcomes[0]) ==>
      r.value.1.run == RetryRun(1, Waiting)
  {
    match Validate(buf)
    case Fail(err) => Failure(err)
    case Pass =>
      var payload := Rewind(buf);
      var key :- EndpointKey(ipPort);
      var run := match plan
        case SingleAttempt => Run(plan, outcomes)
        case WithRetries(budget) => RetryRechecked(outcomes, budget, Validate(payload).Pass?);
      Success((payload, Call(key, ipPort.value, run)))
  }

  /**
   * A buffer of 300 bytes of which 100 were already read passes the check (200 readable),
   * but the rewound payload has 300 readable bytes, so the connection refuses to frame it
   * and the request can only time out.
   */
  lemma WriteCheckedBeforeRewind()
    ensures var buf := BufferState(seq(300, _ => 0), 100);
            var r := WriteCallAsWritten(Some("host"), buf, SingleAttempt, []);
            && r.Success?
            && Connection.Transmit(Connection.Initial,
                 Connection.Request("host", 0, Connection.WriteOp(r.value.0), 0)).1.None?
  {
  }

  /**
   * `writeAsync0` with the check the limit is evidently meant to make: the buffer is rewound
   * first and what will be sent is checked, so an oversized payload is refused before a
   * connection is requested. The rewound buffer is the payload the requests carry.
   */
  function WriteCall(ipPort: Option<string>, buf: Buffer, plan: RetryPlan, outcomes: seq<Result<()>>): (r: Result<(Buffer, Call<()>)>)
    ensures r.Failure? <==> |buf.bytes| > MAX_READABLE || EndpointKey(ipPort).Failure?
    ensures |buf.bytes| > MAX_READABLE ==> r == Failure(ModbusError(TOO_MANY_REGISTERS))
    ensures |buf.bytes| <= MAX_READABLE && r.Failure? ==> r.error == IllegalArgument(EMPTY_ENDPOINT)
    ensures r.Success? ==>
      var (payload, call) := r.value;
      && payload.reader == 0 && payload.bytes == buf.bytes
      && call.key == EndpointKey(ipPort).value && call.ipPort == ipPort.value
      && call.run == Run(plan, outcomes)
  {
    var payload := Rewind(buf);
    match Validate(payload)
    case Fail(err) => Failure(err)
    case Pass =>
      var key :- EndpointKey(ipPort);
      Success((payload, Call(key, ipPort.value, Run(plan, outcomes))))
  }

  /** Where the buffer is unread from the start, both orders of the check agree. */
  lemma WriteCallAgrees(ipPort: Option<string>, buf: Buffer, plan: RetryPlan, outcomes: seq<Result<()>>)
    requires buf.reader == 0
    ensures WriteCall(ipPort, buf, plan, outcomes) == WriteCallAsWritten(ipPort, buf, plan, outcomes)
  {
  }

  /**
   * Every write the corrected check accepts is framed by the connection, whatever its state:
   * the frame carries the whole buffer, and its length and byte-count fields are exact.
   */
  lemma AcceptedWriteIsFramed(ipPort: Option<string>, buf: Buffer, plan: RetryPlan, outcomes: seq<Result<()>>,
                              e: Connection.Engine, address: int32, slot: nat)
    requires WriteCall(ipPort, buf, plan, outcomes).Success?
    ensures var payload := WriteCall(ipPort, buf, plan, outcomes).value.0;
            var frame := Connection.Transmit(e, Connection.Request(ipPort.value, address, Connection.WriteOp(payload), slot)).1;
            && frame == Some(Codec.WriteFrame(Codec.NextTidAsWritten(e.counter).1, address, buf.bytes))
            && U16(frame.value[4], frame.value[5]) == |frame.value| - Codec.LENGTH_PREFIX
            && frame.value[12] == |buf.bytes|
  {
    Codec.WriteFrameFieldsExact(Codec.NextTidAsWritten(e.counter).1, address, buf.bytes);
  }

  /** `readAsync(ipPort, address, count, retries)`. */
  function ReadAsync(ipPort: Option<string>, retries: int32, outcomes: seq<Result<Buffer>>): (r: Result<Call<Buffer>>)
    ensures r.Success? ==> r.value.run.attempts <= MAX_RETRIES + 1
    ensures r.Success? && retries <= 0 ==> r.value.run.attempts <= 1
    ensures r.Success? ==> r.value.run.attempts <= RetryBudget(retries) + 1
    ensures r.Success? && r.value.run.result.Done? ==> Settled(outcomes, r.value.run, RetryBudget(retries))
    ensures r.Success? && r.value.run.result.Waiting? ==> |outcomes| <= RetryBudget(retries)
  {
    AttemptsBounded(retries, outcomes);
    ReadCall(ipPort, Plan(retries), outcomes)
  }

  /** `readAsync(ipPort, address, count)`: one retry. */
  function ReadAsyncDefault(ipPort: Option<string>, outcomes: seq<Result<Buffer>>): (r: Result<Call<Buffer>>)
    ensures r.Success? ==> r.value.run.attempts <= 2
  {
    ReadAsync(ipPort, 1, outcomes)
  }

  /** `writeAsync(ipPort, address, buf, retries)`. */
  function WriteAsync(ipPort: Option<string>, buf: Buffer, retries: int32, outcomes: seq<Result<()>>): (r: Result<(Buffer, Call<()>)>)
    ensures r.Success? ==> r.value.1.run.attempts <= MAX_RETRIES + 1
    ensures r.Success? && retries <= 0 ==> r.value.1.run.attempts <= 1
    ensures r.Success? ==> r.value.1.run.attempts <= RetryBudget(retries) + 1
    ensures r.Success? && r.value.1.run.result.Done? ==> Settled(outcomes, r.value.1.run, RetryBudget(retries))
    ensures r.Success? && |buf.bytes| <= MAX_READABLE && r.value.1.run.result.Waiting? ==>
      |outcomes| <= RetryBudget(retries)
  {
    WriteCallAsWritten(ipPort, buf, Plan(retries), outcomes)
  }

  /** `writeAsync(ipPort, address, buf)`: one retry. */
  function WriteAsyncDefault(ipPort: Option<string>, buf: Buffer, outcomes: seq<Result<()>>): (r: Result<(Buffer, Call<()>)>)
    ensures r.Success? ==> r.value.1.run.attempts <= 2
  {
    WriteAsync(ipPort, buf, 1, outcomes)
  }

  /**
   * What a blocking call delivers for a completed result: a failure comes back as a
   * `ModbusException` around the `ExecutionException` that `get()` throws with it as cause.
   */
  function Rethrown<T>(outcome: Result<T>): (v: Result<T>)
    ensures v.Success? <==> outcome.Success?
    ensures outcome.Success? ==> v == outcome
    ensures outcome.Failure? ==> v.error.Wrapped? && v.error.cause == outcome.error
  {
    match outcome
    case Success(_) => outcome
    case Failure(cause) => Failure(Wrapped(cause))
  }

  /**
   * The value a blocking call allowed `budget` retries returns or throws: the first outcome
   * that ends the run, rethrown. Attempt k ends it when it succeeds, times out connecting, or
   * spends the last retry.
   */
  ghost predicate SettlesOn<T>(outcomes: seq<Result<T>>, v: Result<T>, budget: nat)
  {
    exists k :: 0 <= k < |outcomes| && k <= budget && v == Rethrown(outcomes[k])
      && Final(outcomes[k], budget - k)
      && forall i :: 0 <= i < k ==> Retryable(outcomes[i])
  }

  /** The outcomes and the budget determine the value: at most one outcome settles a run. */
  lemma SettlesOnUnique<T>(outcomes: seq<Result<T>>, v: Result<T>, w: Result<T>, budget: nat)
    requires SettlesOn(outcomes, v, budget) && SettlesOn(outcomes, w, budget)
    ensures v == w
  {
  }

  /**
   * Blocking on a call (`get()`): an exception thrown while starting the call reaches the
   * caller as it is; a failed result is rethrown wrapped in a `ModbusException`; a result
   * still waiting keeps the caller blocked (`None`).
   */
  function Await<T>(r: Result<Call<T>>): (v: Option<Result<T>>)
    ensures r.Failure? ==> v == Some(Failure(r.error))
    ensures r.Success? && r.value.run.result.Waiting? ==> v.None?
    ensures r.Success? && r.value.run.result.Done? ==>
      v.Some? && v.value.Success? == r.value.run.result.result.Success?
    ensures r.Success? && r.value.run.result.Done? && r.value.run.result.result.Success? ==>
      v == Some(r.value.run.result.result)
    ensures r.Success? && r.value.run.result.Done? && r.value.run.result.result.Failure? ==>
      v == Some(Failure(Wrapped(r.value.run.result.result.error)))
  {
    match r
    case Failure(err) => Some(Failure(err))
    case Success(call) =>
      match call.run.result
      case Waiting => None
      case Done(Success(v)) => Some(Success(v))
      case Done(Failure(cause)) => Some(Failure(Wrapped(cause)))
  }

  /** The write's own outcome, as the blocking `write` calls see it. */
  function Written(r: Result<(Buffer, Call<()>)>): (c: Result<Call<()>>)
    ensures c.Success? <==> r.Success?
    ensures r.Failure? ==> c.error == r.error
    ensures r.Success? ==> c.value == r.value.1
  {
    match r
    case Failure(err) => Failure(err)
    case Success((_, call)) => Success(call)
  }

  /**
   * `read(ipPort, address, count)`: blocks on one plain attempt, which it rethrows wrapped
   * when it fails; an empty endpoint throws the argument error unwrapped.
   */
  function Read(ipPort: Option<string>, outcomes: seq<Result<Buffer>>): (v: Option<Result<Buffer>>)
    ensures EndpointKey(ipPort).Failure? ==> v == Some(Failure(IllegalArgument(EMPTY_ENDPOINT)))
    ensures EndpointKey(ipPort).Success? ==> (v.None? <==> outcomes == [])
    ensures EndpointKey(ipPort).Success? && outcomes != [] ==> v == Some(Rethrown(outcomes[0]))
  {
    Await(ReadCall(ipPort, SingleAttempt, outcomes))
  }

  /**
   * `read(ipPort, address, count, retries)`: blocks until the run settles, which it does on
   * the first success, the first connect time-out or the attempt that spends the last retry.
   */
  function ReadWithRetries(ipPort: Option<string>, retries: int32, outcomes: seq<Result<Buffer>>): (v: Option<Result<Buffer>>)
    ensures EndpointKey(ipPort).Failure? ==> v == Some(Failure(IllegalArgument(EMPTY_ENDPOINT)))
    ensures EndpointKey(ipPort).Success? && outcomes != [] && (!Retryable(outcomes[0]) || retries <= 0) ==>
      v == Some(Rethrown(outcomes[0]))
    ensures EndpointKey(ipPort).Success? && v.Some? ==> SettlesOn(outcomes, v.value, RetryBudget(retries))
    ensures EndpointKey(ipPort).Success? && v.None? ==> |outcomes| <= RetryBudget(retries)
  {
    var r := ReadAsync(ipPort, retries, outcomes);
    Await(r)
  }

  /**
   * `write(ipPort, address, data)`: blocks on the one-retry `writeAsync`. The limit and
   * endpoint errors are thrown unwrapped; a buffer whose readable bytes pass the check but
   * whose full contents do not leaves the caller blocked once its first attempt fails.
   */
  function Write(ipPort: Option<string>, buf: Buffer, outcomes: seq<Result<()>>): (v: Option<Result<()>>)
    ensures Readable(buf) > MAX_READABLE ==> v == Some(Failure(ModbusError(TOO_MANY_REGISTERS)))
    ensures Readable(buf) <= MAX_READABLE && EndpointKey(ipPort).Failure? ==>
      v == Some(Failure(IllegalArgument(EMPTY_ENDPOINT)))
    ensures Readable(buf) <= MAX_READABLE && EndpointKey(ipPort).Success? && outcomes != [] && !Retryable(outcomes[0]) ==>
      v == Some(Rethrown(outcomes[0]))
    ensures Readable(buf) <= MAX_READABLE && EndpointKey(ipPort).Success? && v.Some? ==>
      SettlesOn(outcomes, v.value, 1)
    ensures |buf.bytes| <= MAX_READABLE && EndpointKey(ipPort).Success? && v.None? ==> |outcomes| <= 1
  {
    var r := WriteAsyncDefault(ipPort, buf, outcomes);
    Await(Written(r))
  }

  /** `write(ipPort, address, data, retries)`. */
  function WriteWithRetries(ipPort: Option<string>, buf: Buffer, retries: int32, outcomes: seq<Result<()>>): (v: Option<Result<()>>)
    ensures Readable(buf) > MAX_READABLE ==> v == Some(Failure(ModbusError(TOO_MANY_REGISTERS)))
    ensures Readable(buf) <= MAX_READABLE && EndpointKey(ipPort).Failure? ==>
      v == Some(Failure(IllegalArgument(EMPTY_ENDPOINT)))
    ensures var started := Readable(buf) <= MAX_READABLE && EndpointKey(ipPort).Success?;
      started && outcomes != [] && (!Retryable(outcomes[0]) || retries <= 0) ==> v == Some(Rethrown(outcomes[0]))
    ensures Readable(buf) <= MAX_READABLE && EndpointKey(ipPort).Success? && v.Some? ==>
      SettlesOn(outcomes, v.value, RetryBudget(retries))
    ensures |buf.bytes| <= MAX_READABLE && EndpointKey(ipPort).Success? && v.None? ==>
      |outcomes| <= RetryBudget(retries)
  {
    var r := WriteAsync(ipPort, buf, retries, outcomes);
    Await(Written(r))
  }

  /** The blocking `read` without a retry count is the one with a count of zero. */
  lemma ReadOverloadIsSingleAttempt(ipPort: Option<string>, outcomes: seq<Result<Buffer>>)
    ensures Read(ipPort, outcomes) == ReadWithRetries(ipPort, 0, outcomes)
  {
  }

  /**
   * One retry allowed, two retryable failures, then a success: the caller gets the second
   * failure, rethrown, and the success after the budget cannot be what the run settles on.
   */
  lemma ReadStopsAtBudget(v: Buffer)
    ensures var os := [Failure(TransportError), Failure(TransportError), Success(v)];
            && ReadWithRetries(Some("h"), 1, os) == Some(Failure(Wrapped(TransportError)))
            && !SettlesOn(os, Success(v), 1)
  {
  }

  /** The blocking `write` without a retry count is the one with a count of one. */
  lemma WriteOverloadIsOneRetry(ipPort: Option<string>, buf: Buffer, outcomes: seq<Result<()>>)
    ensures Write(ipPort, buf, outcomes) == WriteWithRetries(ipPort, buf, 1, outcomes)
  {
  }

  /**
   * A buffer whose readable bytes pass the check but whose full contents exceed the limit:
   * its first attempt cannot be framed, and once that attempt fails with a retryable cause the
   * retry's check throws where nothing catches it, so a blocking write with retries never
   * returns, whatever the later outcomes.
   */
  lemma RetriedWriteHangs(ipPort: string, buf: Buffer, retries: int32, outcomes: seq<Result<()>>)
    requires ipPort != [] && Readable(buf) <= MAX_READABLE < |buf.bytes|
    requires retries > 0 && outcomes != [] && Retryable(outcomes[0])
    ensures WriteWithRetries(Some(ipPort), buf, retries, outcomes).None?
    ensures Write(Some(ipPort), buf, outcomes).None?
    ensures WriteCall(Some(ipPort), buf, Plan(retries), outcomes) == Failure(ModbusError(TOO_MANY_REGISTERS))
  {
  }

  /**
   * The overloads without a retry count, on a first attempt that fails with a retryable
   * cause and a second that succeeds: the asynchronous `read` retries and succeeds, and the
   * blocking `read` makes one attempt and rethrows the first failure. The write overloads
   * retry and succeed when the first attempt failed to connect, before anything was framed.
   */
  lemma OverloadDefaults(ipPort: string, buf: Buffer, cause: Error, v: Buffer)
    requires ipPort != [] && cause != ConnectTimeout
    requires |buf.bytes| <= MAX_READABLE
    ensures ReadAsyncDefault(Some(ipPort), [Failure(cause), Success(v)]).value.run
         == RetryRun(2, Done(Success(v)))
    ensures Read(Some(ipPort), [Failure(cause), Success(v)]) == Some(Failure(Wrapped(cause)))
    ensures cause == TransportError ==>
      WriteAsyncDefault(Some(ipPort), buf, [Failure(cause), Success(())]).value.1.run
      == RetryRun(2, Done(Success(())))
    ensures cause == TransportError ==>
      Write(Some(ipPort), buf, [Failure(cause), Success(())]) == Some(Success(()))
  {
    var os := [Failure(cause), Success(v)];
    RetryStopsAtFirstFinal(os, 1, 1);
    var ws := [Failure(cause), Success(())];
    RetryStopsAtFirstFinal(ws, 1, 1);
  }

  /** A blocking call on an empty endpoint throws the argument error itself, unwrapped. */
  lemma EmptyEndpointThrows(outcomes: seq<Result<Buffer>>, retries: int32)
    ensures Read(Some([]), outcomes) == Some(Failure(IllegalArgument(EMPTY_ENDPOINT)))
    ensures ReadWithRetries(None, retries, outcomes) == Some(Failure(IllegalArgument(EMPTY_ENDPOINT)))
  {
  }

  // ---------------------------------------------------------------------------------------
  // Constructor clamps

  /** The settings the constructor derives: request and connect time-outs in ms, idle time in s. */
  datatype Config = Config(requestTimeoutMs: int32, idleSec: int32, connectTimeoutMs: int32)

  function Max(a: int, b: int): int
  {
    if a >= b then a else b
  }

  /** The constructor as written: `Math.max(sec, floor) * 1000` in 32-bit arithmetic. */
  function ConfigAsWritten(requestTimeoutSec: int32, idleSec: int32, connectTimeoutSec: int32): (c: Config)
    ensures c.idleSec >= 10
    ensures requestTimeoutSec <= 2147483 ==> c.requestTimeoutMs >= 1000
    ensures connectTimeoutSec <= 2147483 ==> c.connectTimeoutMs >= 3000
  {
    Config(Wrap32(Max(requestTimeoutSec, 1) * 1000),
           Max(idleSec, 10),
           Wrap32(Max(connectTimeoutSec, 3) * 1000))
  }

  /** A request time-out above 2147483 s overflows to a negative number of milliseconds. */
  lemma ConfigAsWrittenOverflow()
    ensures ConfigAsWritten(2147484, 60, 15).requestTimeoutMs < 0
    ensures ConfigAsWritten(5, 60, 2147484).connectTimeoutMs < 0
  {
  }

  /** The largest `int`. */
  const INT_MAX: int32 := 0x7FFF_FFFF

  /** Seconds to milliseconds, saturating at the largest `int`. */
  function Millis(sec: int): (ms: int32)
    requires sec >= 1
    ensures ms >= 1000
    ensures sec <= INT_MAX / 1000 ==> ms == sec * 1000
    ensures sec > INT_MAX / 1000 ==> ms == INT_MAX
  {
    if sec > INT_MAX / 1000 then INT_MAX else sec * 1000
  }

  /**
   * The constructor with the clamps it evidently intends: a request time-out of at least one
   * second, an idle time of at least ten seconds and a connect time-out of at least three
   * seconds, each time-out the requested number of seconds when that fits an `int`.
   */
  function MakeConfig(requestTimeoutSec: int32, idleSec: int32, connectTimeoutSec: int32): (c: Config)
    ensures c.requestTimeoutMs >= 1000 && c.idleSec >= 10 && c.connectTimeoutMs >= 3000
    ensures c.idleSec == idleSec || (idleSec < 10 && c.idleSec == 10)
    ensures 1 <= requestTimeoutSec <= 2147483 ==> c.requestTimeoutMs == requestTimeoutSec * 1000
    ensures 3 <= connectTimeoutSec <= 2147483 ==> c.connectTimeoutMs == connectTimeoutSec * 1000
  {
    Config(Millis(Max(requestTimeoutSec, 1)), Max(idleSec, 10), Millis(Max(connectTimeoutSec, 3)))
  }

  /** Where the source does not overflow, the corrected constructor agrees with it. */
  lemma MakeConfigAgrees(requestTimeoutSec: int32, idleSec: int32, connectTimeoutSec: int32)
    requires requestTimeoutSec <= 2147483 && connectTimeoutSec <= 2147483
    ensures MakeConfig(requestTimeoutSec, idleSec, connectTimeoutSec)
         == ConfigAsWritten(requestTimeoutSec, idleSec, connectTimeoutSec)
  {
  }

  /** `new ModbusMaster()`: 5 s per request, 60 s idle, 15 s to connect. */
  lemma DefaultConfig()
    ensures MakeConfig(5, 60, 15) == Config(5000, 60, 15000)
  {
  }
}

=== FILE: register_buffer.dfy ===
/**
 * `ModbusByteBuf`: a growable byte buffer holding Modbus register data, with a read cursor.
 * Writes append at the end; reads consume from the cursor and fail (as Netty does) when
 * fewer bytes remain than they need. A buffer is an immutable value here: every operation
 * returns the buffer as it is afterwards.
 */
module RegisterBuffer {
  import opened JavaInt
  import opened Results
  import Binary

  /** More 32-bit values than this would exceed the 125-register limit of one request. */
  const MAX_INTS: nat := 62
  const MAX_SHORTS: nat := 125
  /** The most readable bytes a request may carry: 125 registers. */
  const MAX_READABLE: nat := 250

  const TOO_MANY_REGISTERS: string := "exceed limited 125 registers"
  const ODD_LENGTH: string := "bytes length is odd"

  datatype BufferState = BufferState(bytes: seq<byte>, reader: nat)

  /** The written bytes and the read cursor, which never passes the end. */
  type Buffer = b: BufferState | b.reader <= |b.bytes| witness BufferState([], 0)

  /** `capacity(n)`: a new, empty buffer (the capacity is only an allocation hint). */
  const Empty: Buffer := BufferState([], 0)

  function Readable(b: Buffer): nat
  {
    |b.bytes| - b.reader
  }

  /** The bytes between the cursor and the end. */
  function Unread(b: Buffer): seq<byte>
  {
    b.bytes[b.reader..]
  }

  /** Appends `data` after the last written byte. */
  function Write(b: Buffer, data: seq<byte>): (r: Buffer)
    ensures r.reader == b.reader
    ensures Unread(r) == Unread(b) + data
  {
    BufferState(b.bytes + data, b.reader)
  }

  /** Moves the cursor `n` bytes forward. */
  function Advance(b: Buffer, n: nat): (r: Buffer)
    requires n <= Readable(b)
  {
    BufferState(b.bytes, b.reader + n)
  }

  /** The `n` bytes at the cursor. */
  function Peek(b: Buffer, n: nat): seq<byte>
    requires n <= Readable(b)
  {
    b.bytes[b.reader..b.reader + n]
  }

  /** Reading `m` then `n` bytes sees the same bytes as reading `m + n`. */
  lemma PeekSplit(b: Buffer, m: nat, n: nat)
    requires m + n <= Readable(b)
    ensures Advance(b, m + n) == Advance(Advance(b, m), n)
    ensures Peek(b, m + n) == Peek(b, m) + Peek(Advance(b, m), n)
  {
  }

  // ---------------------------------------------------------------------------------------
  // 32-bit integers: two registers, the LOW half first, each register big-endian.

  /** Java's `(byte) (x >> 8 * k)`: bits [8k, 8k + 8) of `x`. */
  function ByteOf(x: int32, k: nat): byte
    requires k < 4
  {
    Low8(x / (if k == 0 then 1 else if k == 1 then TWO_8 else if k == 2 then TWO_16 else 0x100_0000))
  }

  /**
   * The four bytes `addInt(x)` writes: bits [8:15], [0:7], [24:31], [16:23] of `x`. The first
   * register holds the low half of the 32-bit pattern and the second the high half.
   */
  function EncodeInt(x: int32): (w: seq<byte>)
    ensures |w| == 4
    ensures U16(w[0], w[1]) == (x % TWO_32) % TWO_16
    ensures U16(w[2], w[3]) == (x % TWO_32) / TWO_16
  {
    SplitLow(x);
    SplitWord(x);
    SplitLow(x / TWO_16);
    SplitHigh(x);
    [ByteOf(x, 1), ByteOf(x, 0), ByteOf(x, 3), ByteOf(x, 2)]
  }

  /** The value `readInt()` assembles from four bytes: `b2 << 24 | b3 << 16 | b0 << 8 | b1`. */
  function DecodeInt(w: seq<byte>): (x: int32)
    requires |w| == 4
    ensures EncodeInt(x) == w
  {
    var u := U16(w[2], w[3]) * TWO_16 + U16(w[0], w[1]);
    var x := Signed32(u);
    var e := EncodeInt(x);
    assert U16(e[0], e[1]) == U16(w[0], w[1]);
    assert U16(e[2], e[3]) == U16(w[2], w[3]);
    U16Injective(e[0], e[1], w[0], w[1]);
    U16Injective(e[2], e[3], w[2], w[3]);
    x
  }

  /** Two Java `int`s with the same encoding are equal. */
  lemma EncodeIntInjective(x: int32, y: int32)
    requires EncodeInt(x) == EncodeInt(y)
    ensures x == y
  {
    var a := x % TWO_32;
    var b := y % TWO_32;
    assert a == (a / TWO_16) * TWO_16 + a % TWO_16;
    assert b == (b / TWO_16) * TWO_16 + b % TWO_16;
    assert a == b;
    SameWrap(x, y);
  }

  /** Encoding loses nothing: every Java `int`, negatives included, decodes back to itself. */
  lemma DecodeEncodeInt(x: int32)
    ensures DecodeInt(EncodeInt(x)) == x
  {
    EncodeIntInjective(DecodeInt(EncodeInt(x)), x);
  }

  /** `addInt(int...)`: the encodings of the elements, in order. */
  function EncodeInts(xs: seq<int32>): (w: seq<byte>)
    ensures |w| == 4 * |xs|
    ensures forall k :: 0 <= k < |xs| ==> w[4 * k..4 * k + 4] == EncodeInt(xs[k])
  {
    if xs == [] then []
    else
      var rest := EncodeInts(xs[1..]);
      var w := EncodeInt(xs[0]) + rest;
      assert forall k :: 1 <= k < |xs| ==> w[4 * k..4 * k + 4] == rest[4 * (k - 1)..4 * (k - 1) + 4];
      w
  }

  lemma {:induction false} EncodeIntsInjective(xs: seq<int32>, ys: seq<int32>)
    requires EncodeInts(xs) == EncodeInts(ys)
    ensures xs == ys
  {
    assert |xs| == |ys|;
    forall k | 0 <= k < |xs|
      ensures xs[k] == ys[k]
    {
      DecodeEncodeInt(xs[k]);
      DecodeEncodeInt(ys[k]);
    }
  }

  /** Every four-byte slot of an encoded sequence decodes to the value it came from. */
  lemma EncodeIntsDecode(xs: seq<int32>)
    ensures forall k :: 0 <= k < |xs| ==> DecodeInt(EncodeInts(xs)[4 * k..4 * k + 4]) == xs[k]
  {
    forall k | 0 <= k < |xs|
      ensures DecodeInt(EncodeInts(xs)[4 * k..4 * k + 4]) == xs[k]
    {
      DecodeEncodeInt(xs[k]);
    }
  }

  /**
   * `addInt(x)`: the cursor stays, the unread bytes keep what they were, and the four bytes
   * after them decode back to x.
   */
  function AddInt(b: Buffer, x: int32): (r: Buffer)
    ensures r.reader == b.reader
    ensures |Unread(r)| == |Unread(b)| + 4 && Unread(r)[..|Unread(b)|] == Unread(b)
    ensures DecodeInt(Unread(r)[|Unread(b)|..]) == x
  {
    DecodeEncodeInt(x);
    Write(b, EncodeInt(x))
  }

  /**
   * `addInt(int...)`: the cursor stays, the unread bytes keep what they were, and four bytes
   * per value follow them, slot k decoding back to value k.
   */
  function AddInts(b: Buffer, xs: seq<int32>): (r: Buffer)
    ensures r.reader == b.reader
    ensures |Unread(r)| == |Unread(b)| + 4 * |xs| && Unread(r)[..|Unread(b)|] == Unread(b)
    ensures forall k :: 0 <= k < |xs| ==>
      DecodeInt(Unread(r)[|Unread(b)| + 4 * k..|Unread(b)| + 4 * k + 4]) == xs[k]
  {
    var w := EncodeInts(xs);
    var r := Write(b, w);
    var n := |Unread(b)|;
    EncodeIntsDecode(xs);
    assert forall k :: 0 <= k < |xs| ==> Unread(r)[n + 4 * k..n + 4 * k + 4] == w[4 * k..4 * k + 4];
    r
  }

  /** `wrap(int...)`: a new buffer holding the values, refused above 62 values. */
  function WrapInts(xs: seq<int32>): (r: Result<Buffer>)
    ensures r.Success? <==> |xs| <= MAX_INTS
    ensures r.Failure? ==> r.error == ModbusError(TOO_MANY_REGISTERS)
    ensures r.Success? ==> r.value.reader == 0 && |r.value.bytes| == 4 * |xs|
  {
    if |xs| > MAX_INTS then Failure(ModbusError(TOO_MANY_REGISTERS))
    else Success(AddInts(Empty, xs))
  }

  /** `readInt()`: the value whose encoding is the four bytes at the cursor. */
  function ReadInt(b: Buffer): (r: Result<(int32, Buffer)>)
    ensures r.Success? <==> Readable(b) >= 4
    ensures r.Failure? ==> r.error == IndexOutOfBounds
    ensures r.Success? ==> EncodeInt(r.value.0) == Peek(b, 4) && r.value.1 == Advance(b, 4)
  {
    if Readable(b) < 4 then Failure(IndexOutOfBounds)
    else Success((DecodeInt(Peek(b, 4)), Advance(b, 4)))
  }

  /** `n` successive `readInt()` calls. */
  function ReadIntsN(b: Buffer, n: nat): (r: Result<(seq<int32>, Buffer)>)
    ensures r.Success? <==> Readable(b) >= 4 * n
    ensures r.Failure? ==> r.error == IndexOutOfBounds
    ensures r.Success? ==> |r.value.0| == n && r.value.1 == Advance(b, 4 * n)
    ensures r.Success? ==> EncodeInts(r.value.0) == Peek(b, 4 * n)
    decreases n
  {
    if n == 0 then Success(([], b))
    else
      var first := ReadInt(b);
      if first.Failure? then Failure(first.error)
      else
        var rest := ReadIntsN(first.value.1, n - 1);
        if rest.Failure? then Failure(rest.error)
        else
          PeekSplit(b, 4, 4 * (n - 1));
          Success(([first.value.0] + rest.value.0, rest.value.1))
  }

  /** `readInt(count)`: an array of `count` values read in order; a negative count cannot be allocated. */
  function ReadInts(b: Buffer, count: int32): (r: Result<(seq<int32>, Buffer)>)
    ensures count < 0 ==> r == Failure(NegativeArraySize)
    ensures count >= 0 ==> r == ReadIntsN(b, count)
  {
    if count < 0 then Failure(NegativeArraySize) else ReadIntsN(b, count)
  }

  /** Reading back what `addInt(int...)` appended to a fully read buffer returns the same values. */
  lemma {:induction false} AddIntsRoundTrip(b: Buffer, xs: seq<int32>)
    requires Readable(b) == 0
    ensures ReadIntsN(AddInts(b, xs), |xs|) == Success((xs, Advance(AddInts(b, xs), 4 * |xs|)))
  {
    var a := AddInts(b, xs);
    assert Unread(a) == Unread(b) + EncodeInts(xs);
    assert Readable(a) == 4 * |xs|;
    assert Peek(a, 4 * |xs|) == Unread(a) == EncodeInts(xs);
    var r := ReadIntsN(a, |xs|);
    assert r.Success?;
    EncodeIntsInjective(r.value.0, xs);
  }

  /** `addInt(x)` followed by `readInt()` on a fully read buffer returns `x`. */
  lemma AddIntRoundTrip(b: Buffer, x: int32)
    requires Readable(b) == 0
    ensures ReadInt(AddInt(b, x)) == Success((x, Advance(AddInt(b, x), 4)))
  {
    var a := AddInt(b, x);
    assert Peek(a, 4) == EncodeInt(x);
    DecodeEncodeInt(x);
  }

  /** `wrap(int...)` followed by `readInt(n)` returns the wrapped values and consumes the buffer. */
  lemma WrapIntsRoundTrip(xs: seq<int32>)
    requires |xs| <= MAX_INTS
    ensures WrapInts(xs).Success?
    ensures var b := WrapInts(xs).value;
            ReadInts(b, |xs|) == Success((xs, BufferState(b.bytes, |b.bytes|)))
  {
    AddIntsRoundTrip(Empty, xs);
  }

  // ---------------------------------------------------------------------------------------
  // 16-bit registers, big-endian.

  /**
   * `addShort(v)` for a `short` or an `int`: the cursor stays, the unread bytes keep what
   * they were, and the two bytes after them read back as the low 16 bits of v.
   */
  function AddShort(b: Buffer, v: int32): (r: Buffer)
    ensures r.reader == b.reader
    ensures |Unread(r)| == |Unread(b)| + 2 && Unread(r)[..|Unread(b)|] == Unread(b)
    ensures U16(Unread(r)[|Unread(b)|], Unread(r)[|Unread(b)| + 1]) == Low16(v)
  {
    Write(b, BigEndian16(v))
  }

  /**
   * `addShort(v)` followed by `readUnsignedShort()` returns the low 16 bits of `v`, and
   * followed by `readShort()` those bits as a signed `short`: a `short` comes back unchanged.
   */
  lemma AddShortRoundTrip(b: Buffer, v: int32)
    requires Readable(b) == 0
    ensures ReadUnsignedShort(AddShort(b, v)) == Success((Low16(v), Advance(AddShort(b, v), 2)))
    ensures ReadShort(AddShort(b, v)).Success?
    ensures Low16(ReadShort(AddShort(b, v)).value.0) == Low16(v)
    ensures -0x8000 <= v < 0x8000 ==> ReadShort(AddShort(b, v)).value.0 == v
  {
    var a := AddShort(b, v);
    assert Peek(a, 2) == BigEndian16(v);
    var u := ReadUnsignedShort(a).value.0;
    BigEndian16Injective(u, v);
    var s := ReadShort(a).value.0;
    BigEndian16Injective(s, v);
  }

  /** `addShort(short...)` / `addShort(int...)`: every element as one register, in order. */
  function EncodeShorts(vs: seq<int32>): (w: seq<byte>)
    ensures |w| == 2 * |vs|
    ensures forall k :: 0 <= k < |vs| ==> w[2 * k..2 * k + 2] == BigEndian16(vs[k])
  {
    if vs == [] then []
    else
      var rest := EncodeShorts(vs[1..]);
      var w := BigEndian16(vs[0]) + rest;
      assert forall k :: 1 <= k < |vs| ==> w[2 * k..2 * k + 2] == rest[2 * (k - 1)..2 * (k - 1) + 2];
      w
  }

  /**
   * `addShort(short...)` / `addShort(int...)`: the cursor stays, the unread bytes keep what
   * they were, and two bytes per element follow them, register k reading back as the low 16
   * bits of element k.
   */
  function AddShorts(b: Buffer, vs: seq<int32>): (r: Buffer)
    ensures r.reader == b.reader
    ensures |Unread(r)| == |Unread(b)| + 2 * |vs| && Unread(r)[..|Unread(b)|] == Unread(b)
    ensures forall k :: 0 <= k < |vs| ==>
      U16(Unread(r)[|Unread(b)| + 2 * k], Unread(r)[|Unread(b)| + 2 * k + 1]) == Low16(vs[k])
  {
    var w := EncodeShorts(vs);
    var r := Write(b, w);
    var n := |Unread(b)|;
    assert forall k :: 0 <= k < |vs| ==>
      Unread(r)[n + 2 * k] == w[2 * k..2 * k + 2][0] && Unread(r)[n + 2 * k + 1] == w[2 * k..2 * k + 2][1];
    r
  }

  /** `wrap(short...)`: a new buffer holding the registers, refused above 125 registers. */
  function WrapShorts(vs: seq<int16>): (r: Result<Buffer>)
    ensures r.Success? <==> |vs| <= MAX_SHORTS
    ensures r.Failure? ==> r.error == ModbusError(TOO_MANY_REGISTERS)
    ensures r.Success? ==> r.value.reader == 0 && |r.value.bytes| == 2 * |vs|
  {
    if |vs| > MAX_SHORTS then Failure(ModbusError(TOO_MANY_REGISTERS))
    else Success(AddShorts(Empty, vs))
  }

  /** `readShort()`: the signed register at the cursor. */
  function ReadShort(b: Buffer): (r: Result<(int16, Buffer)>)
    ensures r.Success? <==> Readable(b) >= 2
    ensures r.Failure? ==> r.error == IndexOutOfBounds
    ensures r.Success? ==> BigEndian16(r.value.0) == Peek(b, 2) && r.value.1 == Advance(b, 2)
  {
    if Readable(b) < 2 then Failure(IndexOutOfBounds)
    else
      var w := Peek(b, 2);
      var v := Signed16(U16(w[0], w[1]));
      assert BigEndian16(v) == w;
      Success((v, Advance(b, 2)))
  }

  /** `readUnsignedShort()`: the register at the cursor as a value in [0, 65535]. */
  function ReadUnsignedShort(b: Buffer): (r: Result<(nat, Buffer)>)
    ensures r.Success? <==> Readable(b) >= 2
    ensures r.Failure? ==> r.error == IndexOutOfBounds
    ensures r.Success? ==> r.value.0 < TWO_16 && BigEndian16(r.value.0) == Peek(b, 2)
    ensures r.Success? ==> r.value.1 == Advance(b, 2)
  {
    if Readable(b) < 2 then Failure(IndexOutOfBounds)
    else
      var w := Peek(b, 2);
      var u := U16(w[0], w[1]);
      assert BigEndian16(u) == w;
      Success((u, Advance(b, 2)))
  }

  /** `n` successive `readShort()` calls. */
  function ReadShortsN(b: Buffer, n: nat): (r: Result<(seq<int16>, Buffer)>)
    ensures r.Success? <==> Readable(b) >= 2 * n
    ensures r.Failure? ==> r.error == IndexOutOfBounds
    ensures r.Success? ==> |r.value.0| == n && r.value.1 == Advance(b, 2 * n)
    ensures r.Success? ==> EncodeShorts(r.value.0) == Peek(b, 2 * n)
    decreases n
  {
    if n == 0 then Success(([], b))
    else
      var first := ReadShort(b);
      if first.Failure? then Failure(first.error)
      else
        var rest := ReadShortsN(first.value.1, n - 1);
        if rest.Failure? then Failure(rest.error)
        else
          PeekSplit(b, 2, 2 * (n - 1));
          Success(([first.value.0] + rest.value.0, rest.value.1))
  }

  /** `readShort(count)`. */
  function ReadShorts(b: Buffer, count: int32): (r: Result<(seq<int16>, Buffer)>)
    ensures count < 0 ==> r == Failure(NegativeArraySize)
    ensures count >= 0 ==> r == ReadShortsN(b, count)
  {
    if count < 0 then Failure(NegativeArraySize) else ReadShortsN(b, count)
  }

  lemma {:induction false} EncodeShortsInjective(xs: seq<int16>, ys: seq<int16>)
    requires EncodeShorts(xs) == EncodeShorts(ys)
    ensures xs == ys
  {
    assert |xs| == |ys|;
    forall k | 0 <= k < |xs|
      ensures xs[k] == ys[k]
    {
      assert BigEndian16(xs[k]) == BigEndian16(ys[k]);
      BigEndian16Injective(xs[k], ys[k]);
    }
  }

  /** `wrap(short...)` followed by `readShort(n)` returns the wrapped registers, in order. */
  lemma WrapShortsRoundTrip(vs: seq<int16>)
    requires |vs| <= MAX_SHORTS
    ensures WrapShorts(vs).Success?
    ensures var b := WrapShorts(vs).value;
            ReadShorts(b, |vs|) == Success((vs, BufferState(b.bytes, |b.bytes|)))
  {
    var b := WrapShorts(vs).value;
    var r := ReadShortsN(b, |vs|);
    assert Peek(b, 2 * |vs|) == EncodeShorts(vs);
    EncodeShortsInjective(r.value.0, vs);
  }

  // ---------------------------------------------------------------------------------------
  // Raw bytes.

  /** `readByte()`: the (signed) byte at the cursor. */
  function ReadByte(b: Buffer): (r: Result<(int8, Buffer)>)
    ensures r.Success? <==> Readable(b) >= 1
    ensures r.Failure? ==> r.error == IndexOutOfBounds
    ensures r.Success? ==> Low8(r.value.0) == b.bytes[b.reader] && r.value.1 == Advance(b, 1)
  {
    if Readable(b) < 1 then Failure(IndexOutOfBounds)
    else Success((SignedByte(b.bytes[b.reader]), Advance(b, 1)))
  }

  /** Each byte pattern as a Java `byte`. */
  function SignedBytes(bs: seq<byte>): (r: seq<int8>)
    ensures |r| == |bs|
    ensures forall k :: 0 <= k < |bs| ==> Low8(r[k]) == bs[k]
  {
    if bs == [] then [] else [SignedByte(bs[0])] + SignedBytes(bs[1..])
  }

  /** `readByte(count)`: `count` bytes read in order. */
  function ReadBytes(b: Buffer, count: int32): (r: Result<(seq<int8>, Buffer)>)
    ensures r.Success? <==> 0 <= count <= Readable(b)
    ensures count < 0 ==> r == Failure(NegativeArraySize)
    ensures count >= 0 && r.Failure? ==> r.error == IndexOutOfBounds
    ensures r.Success? ==> |r.value.0| == count && r.value.1 == Advance(b, count)
    ensures r.Success? ==> forall k :: 0 <= k < count ==> Low8(r.value.0[k]) == b.bytes[b.reader + k]
  {
    if count < 0 then Failure(NegativeArraySize)
    else if count > Readable(b) then Failure(IndexOutOfBounds)
    else Success((SignedBytes(Peek(b, count)), Advance(b, count)))
  }

  /** `addByte(bytes)`: appends an even number of bytes verbatim; an odd number is refused. */
  function AddBytes(b: Buffer, data: seq<byte>): (r: Result<Buffer>)
    ensures r.Success? <==> |data| % 2 == 0
    ensures r.Failure? ==> r.error == IllegalArgument(ODD_LENGTH)
    ensures r.Success? ==> r.value.reader == b.reader && r.value.bytes == b.bytes + data
  {
    if |data| % 2 == 1 then Failure(IllegalArgument(ODD_LENGTH)) else Success(Write(b, data))
  }

  /** `wrap(byte[])`: a new buffer holding an even number of bytes verbatim; odd is refused. */
  function WrapBytes(data: seq<byte>): (r: Result<Buffer>)
    ensures r.Success? <==> |data| % 2 == 0
    ensures r.Failure? ==> r.error == IllegalArgument(ODD_LENGTH)
    ensures r.Success? ==> r.value.reader == 0 && Unread(r.value) == data
  {
    if |data| % 2 == 1 then Failure(IllegalArgument(ODD_LENGTH)) else Success(Write(Empty, data))
  }

  /** `add(buf)`: appends the unread bytes of another buffer. */
  function Append(b: Buffer, src: Buffer): (r: Buffer)
    ensures r.reader == b.reader && r.bytes == b.bytes + Unread(src)
  {
    Write(b, Unread(src))
  }

  // ---------------------------------------------------------------------------------------
  // Cursor and size checks.

  /** `readBitsReverse()`: one unsigned register as 16 characters, bit 0 first. */
  function ReadBitsReverse(b: Buffer): (r: Result<(seq<char>, Buffer)>)
    ensures r.Success? <==> Readable(b) >= 2
    ensures r.Failure? ==> r.error == IndexOutOfBounds
    ensures r.Success? ==> |r.value.0| == 16 && r.value.1 == Advance(b, 2)
    ensures r.Success? ==>
      forall i :: 0 <= i < 16 ==>
        (r.value.0[i] == '1' <==> Binary.BitSet(U16(b.bytes[b.reader], b.bytes[b.reader + 1]), i))
  {
    var p :- ReadUnsignedShort(b);
    var cs := Binary.BitsReversed(p.0);
    assert p.0 == U16(b.bytes[b.reader], b.bytes[b.reader + 1]);
    forall i | 0 <= i < 16
      ensures cs[i] == '1' <==> Binary.BitSet(p.0, i)
    {
      Binary.BitsReversedMeaning(p.0, i);
    }
    Success((cs, p.1))
  }

  /** The register 5 (bits 0 and 2 set) reads as "1010000000000000". */
  lemma ReadBitsReverseOfFive()
    ensures ReadBitsReverse(BufferState([0, 5], 0)) == Success(("1010000000000000", BufferState([0, 5], 2)))
  {
    Binary.BitsReversedOfFive();
  }

  /**
   * `skipRegisters(n)`: moves the cursor over `n` registers. The byte count `n * 2` is a Java
   * `int`; Netty refuses a negative count and one beyond the readable bytes.
   */
  function SkipRegisters(b: Buffer, n: int32): (r: Result<Buffer>)
    ensures 0 <= 2 * n <= Readable(b) && n < 0x4000_0000 ==> r == Success(Advance(b, 2 * n))
    ensures r.Success? ==> r.value.bytes == b.bytes && r.value.reader >= b.reader
    ensures 0 <= n < 0x4000_0000 && 2 * n > Readable(b) ==> r == Failure(IndexOutOfBounds)
    ensures -0x4000_0000 <= n < 0 ==> r == Failure(NegativeLength)
  {
    var k := Wrap32(n * 2);
    if k < 0 then Failure(NegativeLength)
    else if k > Readable(b) then Failure(IndexOutOfBounds)
    else Success(Advance(b, k))
  }

  /** `validate()`: a buffer with more than 250 readable bytes cannot go into one request. */
  function Validate(b: Buffer): (r: Outcome)
    ensures r.Fail? <==> Readable(b) > MAX_READABLE
    ensures r.Fail? ==> r.error == ModbusError(TOO_MANY_REGISTERS)
  {
    if Readable(b) > MAX_READABLE then Fail(ModbusError(TOO_MANY_REGISTERS)) else Pass
  }

  /** `delegate().readerIndex(0)`: rewinds the cursor to the first byte. */
  function Rewind(b: Buffer): (r: Buffer)
    ensures Unread(r) == b.bytes
  {
    BufferState(b.bytes, 0)
  }
}

=== FILE: results.dfy ===
/** The failures the client raises, and the result, option and future types that carry them. */
module Results {

  /** The exceptions of the source, by the class that is thrown. */
  datatype Error =
    | ModbusError(message: string)      // the client's own ModbusException
    | IllegalArgument(message: string)  // IllegalArgumentException
    | IndexOutOfBounds                  // a Netty buffer read past its writer index
    | NegativeArraySize                 // `new T[n]` with n < 0
    | NegativeLength                    // Netty refuses a negative length (IllegalArgumentException)
    | ConnectTimeout                    // the connect attempt exceeded its timeout
    | TransportError                    // any other I/O failure of an attempt
    | Wrapped(cause: Error)             // a ModbusException around the ExecutionException carrying `cause`

  /** A value or the exception that replaced it. */
  datatype Result<+T> = Success(value: T) | Failure(error: Error) {

    predicate IsFailure() {
      Failure?
    }

    function PropagateFailure<U>(): Result<U>
      requires Failure?
    {
      Failure(error)
    }

    function Extract(): T
      requires Success?
    {
      value
    }
  }

  datatype Option<+T> = None | Some(value: T)

  /** A check that throws or returns normally (a `void` method that may throw). */
  datatype Outcome = Pass | Fail(error: Error)

  /** The state of a CompletableFuture: not yet completed, or completed once with a result. */
  datatype Future<+T> = Waiting | Done(result: Result<T>)

  /**
   * CompletableFuture's `complete`/`completeExceptionally`: the first completion wins and a
   * later one leaves the future as it was.
   */
  function Complete<T>(f: Future<T>, r: Result<T>): (g: Future<T>)
    ensures g.Done?
    ensures f.Done? ==> g == f
    ensures f.Waiting? ==> g.result == r
  {
    if f.Done? then f else Done(r)
  }
}
